=== FILE: README.md ===
# MedAI decision and prompt layer, in Dafny

MedAI is a medical chat assistant that exists in two variants:

- a full-stack web application (`medai/`);
- a single-file micro-framework application (`xyz/app.py`).

Both variants share a document store of users, medical profiles and conversation turns. Both wrap a hosted generative model. This project models the logic around that model:

- the YES/NO query classifier;
- the profile detail lines and prompt composition;
- the two chat endpoints;
- registration;
- the profile page with its update and conversation history.

Each of these is a pure Dafny function. The model proves what the endpoints promise.

How the model is set up:

- **The model service.** Every request to the hosted model is an oracle. A run is fixed by the sequence of replies the service would give (`Oracle.Reply = Option<string>`, where `None` means the call raised). The handlers return the trace of calls they made (`Classify(query)` or `Generate(prompt)`). "The generator is never asked" is then a statement about that trace.
- **The store.** The store is a record of sequences in insertion order (`Store.Store`). "At most one turn is logged" is a statement about the store a handler returns.
- **Other inputs.** The clock (`now`), the password hash and the outcome of obtaining a store handle are parameters.
  - The full-stack variant's handle is `MedaiDb.Connection`: a handle, no handle, or an exception.
  - The micro-framework variant's handle is a boolean `dbUp`, because its connection function cannot raise.
- **Text.** Text is `seq<char>`:
  - `Strings.Strip` removes Python's full `str.isspace` set;
  - `Strings.Upper` upper-cases ASCII letters only;
  - `Strings.Contains` is Python's `in` on strings.
- **Profile values.** Profile fields follow Python truthiness: `None`, `0` and `""` count as absent. Height and weight are `Profiles.Measure`, which holds the float's printed text and whether it is non-zero.

Modules, in dependency order:

| module | file | what it holds |
|---|---|---|
| `Common` | common.dfy | `Option`, first-match search (`find_one`) |
| `Strings` | strings.dfy | strip, upper, substring search, join, integer printing |
| `Oracle` | oracle.dfy | replies, calls, reply hand-off to a callee |
| `Classifier` | classifier.dfy | both variants' `is_medical_query` |
| `Profiles` | profiles.dfy | profile data, detail lines and their field-table reference |
| `Prompt` | prompt.dfy | fixed texts, patient block, both prompt shapes |
| `Store` | store.dfy | collections, lookups, the turn insert, the store invariant |
| `History` | history.dfy | newest-first, at most 20 turns of a user |
| `MedaiDb` | medai_db.dfy | the full-stack connection function (see Findings) |
| `Accounts` | accounts.dfy | registration in both variants |
| `ProfilePages` | profile_pages.dfy | profile pages in both variants |
| `MedaiAi` | medai_ai.dfy | `get_ai_response` |
| `Exchange` | exchange.dfy | request bodies, responses, the logged turn |
| `MedaiChat` | medai_chat.dfy | `chat_api` |
| `FlaskChat` | flask_chat.dfy | `chat` |

Two behaviours of the code that a reader might not expect:

- **Profile update.** `update_one` is called without `upsert` (xyz/app.py:247-250, medai/views.py:184-187). An update for a user with no profile document is therefore lost, and the default all-null document is inserted afterwards.
  - When a document exists, `ProfilePages.UpdateThenReadBack` proves the round trip on the micro-framework page and `ProfilePages.MedaiUpdateThenReadBack` on the full-stack page.
  - When none does, `ProfilePages.UpdateLostWithoutDocument` proves the loss on the micro-framework page and `ProfilePages.MedaiUpdateLostWithoutDocument` on the full-stack page.
- **Registration conflicts.** The conflict lookup returns the first stored record that matches the username or the non-empty email (xyz/app.py:133). The username message is given only if that record holds the username.
  - `Accounts.ConflictMessage` states which message the first matching record gives.
  - `Accounts.FirstRecordDecides` shows a store where the username is taken but the email message is given.

## Model

| member | source | states |
|---|---|---|
| Strings.Strip | medai/ai.py:44 | `str.strip()`: the result is empty exactly when the text is all whitespace; otherwise it starts and ends on non-whitespace and is the window left after removing the leading and trailing whitespace runs |
| Strings.Contains | medai/ai.py:45 | Python `in` on strings: true exactly when the pattern occurs at some index of the text |
| Strings.Upper | medai/ai.py:44 | `str.upper()` on ASCII letters: the same length, each character upper-cased in place |
| Strings.JoinLayout | medai/ai.py:102 | `sep.join(parts)` lays the parts end to end: part k starts after the parts before it, each followed by one separator, a separator follows every part but the last, and the last part ends the text |
| Strings.JoinKeepsParts | medai/ai.py:102 | every part of a `"\n".join` occurs in the joined text |
| Strings.StripUnique | medai/views.py:247 | `str.strip()` is determined by its promise: a text without whitespace at either end that sits in the input with only whitespace around it is the stripped input |
| Strings.NatToStringRoundTrip | medai/ai.py:84 | the decimal rendering of an age reads back as the same number (digits only, no leading zero) |
| Classifier.StripIrrelevant | medai/ai.py:44-45 | stripping the reply before upper-casing never changes whether a whitespace-free pattern such as "YES" occurs |
| Classifier.SaysYes | medai/ai.py:44-45 | a reply says yes exactly when its upper-cased text contains "YES" anywhere, stripped or not |
| Classifier.MedaiIsMedical | medai/ai.py:20-52 | full-stack classifier: medical exactly when the call returned and the reply contains "YES" case-insensitively; a raising call counts as not medical |
| Classifier.FlaskIsMedical | xyz/app.py:78-94 | micro-framework classifier: the same test, but a raising call counts as medical |
| Classifier.VariantsDifferOnlyOnError | xyz/app.py:89-94 | the two classifiers disagree exactly on a raising call |
| Classifier.PermissiveParseExamples | medai/ai.py:44-45 | "yes", "Yes, it is" and "EYES" count as medical; "NO" and "" do not |
| Profiles.DetailLinesMatchTable | medai/ai.py:81-98 | the eight conditional appends produce exactly "Label: value" for the truthy fields, in the fixed field order (the field-table reference); the micro-framework variant's appends (xyz/app.py:318-334) are the same, so the reference holds for both |
| Profiles.PresentFields | medai/ai.py:82-98 | the reference's field list holds a field exactly when it is truthy, and is strictly ordered by rank |
| Profiles.LabelShownIffPresent | medai/ai.py:82-98 | a field's label heads some line exactly when the field is truthy, and then its full line is among the lines |
| Profiles.DetailLinesInFieldOrder | medai/ai.py:82-98 | lines appear in the order age, blood group, height, weight, allergies, chronic conditions, medications, surgeries |
| Profiles.NoLinesIffNothingPresent | medai/ai.py:100 | there are no detail lines exactly when no field is truthy |
| Profiles.AgeAndBloodGroupOnly | medai/ai.py:83-86 | with only age 34 and blood group O+ set the lines are exactly "Age: 34" then "Blood Group: O+" |
| Prompt.PatientBlock | medai/ai.py:100-103 | the patient block is empty exactly when there are no lines; otherwise it is the fixed introduction, then the lines joined by newlines, then the fixed "Now answer the following question" text, so it contains every line |
| Prompt.MedaiContext | medai/ai.py:81-103 | the text between preamble and message is empty exactly when there is no profile or no truthy field, and otherwise is a blank line followed by the patient block of the profile's detail lines, so it contains every truthy field's line |
| Prompt.MedaiPrompt | medai/ai.py:65-108 | the full-stack prompt is the preamble, then exactly the patient context, then the message immediately followed by the guard |
| Prompt.MedaiPromptWithoutProfile | medai/ai.py:81-105 | the prompt is preamble, message, guard exactly when there is no profile or no truthy field |
| Prompt.MedaiPromptShowsProfile | medai/ai.py:100-105 | a truthy field's line sits in the part between preamble and message |
| Prompt.FlaskPrefix | xyz/app.py:315-339 | the micro-framework prefix is non-empty exactly when the query is medical, a profile is stored and a field is truthy; it is then exactly the patient block of the profile's detail lines, which opens with the introduction and contains every truthy line |
| Prompt.FlaskPrompt | xyz/app.py:341 | the micro-framework prompt is the prefix followed by the message, with no preamble or guard, and equals the message exactly when the prefix is empty |
| Prompt.SamePatientBlock | xyz/app.py:336-339 | both variants use the same patient block; the full-stack one only sets it off with a blank line |
| MedaiAi.GetAiResponse | medai/ai.py:54-117 | classify first; a non-medical message gets the refusal after that one call; otherwise the preamble-and-guard prompt is generated from, and a raising call gives the apology, else the stripped reply |
| MedaiAi.GenerationOnlyWhenMedical | medai/ai.py:58-62 | the generator appears in the trace exactly when the classifier said yes; the answer is the refusal, the apology or the stripped reply |
| MedaiAi.ClassifierErrorRefuses | medai/ai.py:49-52 | a raising classifier call yields the refusal with no generation |
| MedaiAi.GeneratedAnswerIsTrimmed | medai/ai.py:111-112 | a generated answer begins and ends with non-whitespace |
| Store.UserNamed | medai/views.py:263 | `find_one` by username returns the first record with that username, and nothing exactly when no record has it |
| Store.ProfileIndex | medai/views.py:197 | `find_one` by user id finds the first document of that id, and nothing exactly when none exists |
| Store.ProfileOf | medai/views.py:287 | a profile is found exactly when a document for the id exists, and it is the profile of the first such document |
| Store.LogTurn | medai/views.py:330 | `insert_one` appends exactly that turn and changes no other collection |
| Store.AppendProfileKeepsUnique | medai/views.py:198-212 | inserting a document for an issued id that has none keeps one profile per user |
| History.TurnsOf | xyz/app.py:276-277 | the filter keeps exactly the user's turns, each as often as stored |
| History.SortNewestFirst | xyz/app.py:278 | the sort is a permutation ordered by descending timestamp |
| History.RecentTurns | xyz/app.py:276-279 | at most 20 of the user's turns (all of them when fewer), newest first, and every left-out turn is no newer than any returned one |
| History.HistoryEntries | xyz/app.py:276-279 | the projection keeps message, answer and time of each selected turn, at most 20 |
| Accounts.ConflictMessage | xyz/app.py:130-142 | no message exactly when neither the username nor the non-empty email is taken; otherwise "Username already exists" exactly when the first record matching the username or the non-empty email holds the username, and "Email already exists" exactly when it does not |
| Accounts.FirstRecordDecides | medai/views.py:42-54 | when an earlier record holds the email, a taken username still gets the email message |
| Accounts.AddAccount | xyz/app.py:144-169 | the registration insert appends exactly one user with the next id, the username, the hash and the email or null, and one all-null profile for that id, moves the next id past it, and leaves the turns and the framework's user table alone |
| Accounts.FlaskRegister | xyz/app.py:113-179 | registration succeeds exactly when both fields are given, a handle exists and there is no conflict; it then inserts one user (null email when empty) and one all-null profile with the new id, and otherwise writes nothing; missing fields are reported first, then a missing handle, then the conflict message of the first matching record |
| Accounts.MedaiRegister | medai/views.py:26-95 | the same, after form validation: no handle gives the database message and a conflict its message; a raising connection, or a username already in the framework's user table, is reported as a registration error without store writes |
| Accounts.AddAccountKeepsWellFormed | xyz/app.py:144-168 | inserting the user and the profile keeps ids fresh and one profile per user |
| Accounts.FlaskRegisterKeepsWellFormed | xyz/app.py:113-179 | micro-framework registration preserves the store invariant |
| Accounts.MedaiRegisterKeepsWellFormed | medai/views.py:56-84 | full-stack registration preserves the store invariant |
| MedaiDb.Connect | medai/db.py:6-18 | a call raises exactly when the cached-handle global is unbound; otherwise it returns a cached or newly created handle, or none when creation fails |
| MedaiDb.AsWrittenAlwaysRaises | medai/db.py:6-10 | from the module state at import, every call of the process raises |
| MedaiDb.CorrectedNeverRaises | medai/db.py:6-18 | with both globals initialised to null, no call raises and once a handle is obtained every later call returns one |
| MedaiDb.UpStaysUp | medai/db.py:10-18 | once a handle is cached every call returns it |
| ProfilePages.SetProfile | medai/views.py:184-187 | the `$set` update replaces only the user's first document, with the new profile and time; with no document nothing is written |
| ProfilePages.Render | medai/views.py:195-230 | the page shows the stored document or a newly inserted all-null one, the shown profile is then the stored one, and the history is the user's recent turns |
| ProfilePages.Visit | medai/views.py:167-212 | a valid update of an existing document is what the page shows; without a document the update is lost and the all-null document is inserted and shown; the shown document is the stored one; without an update an existing document is shown and nothing is written; the history is the user's recent turns; other users' documents and all other collections are unchanged |
| ProfilePages.FlaskProfile | xyz/app.py:222-286 | without a handle the user is redirected; otherwise the page shows the user's stored document and recent history, with the success, failure or no message according to the form: the submitted profile when a document existed, the unchanged document with no write for a GET or a rejected form, and the inserted all-null document when none existed; other users' documents are untouched |
| ProfilePages.MedaiProfile | medai/views.py:151-239 | a raising connection is a server error, no handle or no user record redirects with its message, otherwise the found user's profile page is shown with their recent history; the shown document is the stored one; a valid update of an existing document is what it shows, a GET or a rejected form with a document writes nothing, without a document the all-null one is inserted and shown, and other users' documents are untouched |
| ProfilePages.UpdateThenReadBack | xyz/app.py:242-263 | with a stored document, an update is shown at once and by the next visit |
| ProfilePages.MedaiUpdateThenReadBack | medai/views.py:167-212 | on the full-stack page, for a user with a record and a document, an update is shown at once and by the next visit |
| ProfilePages.UpdateLostWithoutDocument | xyz/app.py:242-266 | without a stored document, the update is reported successful yet the all-null profile is shown and stored |
| ProfilePages.MedaiUpdateLostWithoutDocument | medai/views.py:184-212 | on the full-stack page, a user with a record but no document gets the success message while the all-null profile is shown and stored |
| ProfilePages.VisitIsIdempotent | xyz/app.py:252-266 | a second visit without a form writes nothing and shows the same document |
| ProfilePages.SetProfileKeepsWellFormed | medai/views.py:184-187 | the update keeps one profile per user |
| ProfilePages.RenderKeepsWellFormed | medai/views.py:197-212 | the default insert keeps one profile per user for an issued id |
| ProfilePages.VisitKeepsWellFormed | medai/views.py:167-212 | update and read together keep the store invariant |
| ProfilePages.FlaskProfileKeepsWellFormed | xyz/app.py:222-286 | the micro-framework profile page preserves the store invariant for an issued session id |
| ProfilePages.MedaiProfileKeepsWellFormed | medai/views.py:151-239 | the full-stack profile page preserves the store invariant |
| MedaiChat.Owner | medai/views.py:260-265 | a turn has an owner exactly for a signed-in user, with a handle, whose record exists; the owner is the id of the first record with that username |
| MedaiChat.ChatApi | medai/views.py:241-339 | an unreadable body gives 500 with the apology and no calls; a blank message gives 400 "Please enter a message" with no calls and no writes; anything else is answered as below |
| Exchange.MessageIsTheText | medai/views.py:246-247 | the message read from a text body is the user's own text: any non-blank text without surrounding whitespace that sits in the body with only whitespace around it is that message |
| Exchange.MessageOf | medai/views.py:246-247 | reading `message`: a missing key is the empty message, a non-text value raises, a text is blank exactly when it is all whitespace and otherwise is the text with only whitespace removed from either end; the micro-framework variant reads it the same way (xyz/app.py:290-291) |
| MedaiChat.Respond | medai/views.py:253-332 | classify first; a signed-in request with a raising connection gets 500; otherwise exactly one turn is logged for an owner and none without one, holding the answer sent and the first verdict as tag; generation only after two yes verdicts |
| MedaiChat.Delegate | medai/views.py:277-332 | the medical branch: the pipeline answers on the remaining replies, the first call is the endpoint's classification, the one turn logged for an owner is tagged medical and holds the answer sent, and generation only follows a second yes |
| MedaiChat.ChatRefusesNonMedical | medai/views.py:256-275 | a non-medical message gets the refusal after the one classification, without the pipeline |
| MedaiChat.ChatDelegatesMedical | medai/views.py:277-314 | a medical message is answered by the pipeline on the remaining replies, with the owner's stored profile |
| MedaiChat.RefusalLoggedAsMedical | medai/views.py:316-330 | when the pipeline's own classification says no, the turn tagged medical holds the refusal |
| MedaiChat.VerdictsCanDiffer | medai/ai.py:44-45 | replies exist that make the two classifications differ |
| MedaiChat.SignedInChatFailsAsWritten | medai/views.py:260-261 | with the connection function as written, every signed-in message ends in 500 and nothing is logged |
| MedaiChat.SignedInChatAnswersCorrected | medai/views.py:316-330 | with the globals initialised, a signed-in user with a record gets 200 and one logged turn |
| FlaskChat.SessionProfile | xyz/app.py:301-312 | the profile comes from the session user's document, looked up only with a session and a handle |
| FlaskChat.Chat | xyz/app.py:288-364 | an unreadable body escapes the handler; a blank message gives 400 with no calls; otherwise exactly one classification then one generation; a raising generation gives 500 and no write; else 200 with the stripped reply, logged without a tag exactly when there is a session and a handle |
| FlaskChat.NonMedicalSentVerbatim | xyz/app.py:315-341 | a non-medical message is still sent to the generator, as it stands |
| FlaskChat.ClassifierErrorKeepsProfile | xyz/app.py:89-94 | a raising classifier call counts as medical, so the profile's lines are in the prompt |
| FlaskChat.PromptKeepsPrefixLines | xyz/app.py:336-341 | a truthy field's line survives into a medical prompt |

## Left out

- The hosted model service is not modelled. Model initialisation and the classifier prompt text are left out. Each request is an oracle reply, and only the query or prompt sent is recorded.
- Authentication and sessions are not modelled: login, logout, the login-required decorators and password checking. The signed-in identity and the session user id are inputs. Password hashing is a parameter.
- Index creation and uniqueness are not modelled. The store accepts any insert the handlers issue. The micro-framework variant's own connection function is a boolean: creating the client is lazy there and cannot raise.
- Store failures after a handle was obtained are not modelled: a failing `find_one` or insert.
- Python's truth test on a database handle is taken to mean "a handle was obtained". This holds for pymongo before version 4; from version 4 on, `bool()` of a `Database` raises `NotImplementedError`, which the model does not follow.
- The connection outcome is one value per request. The full-stack chat calls the connection function up to twice, and the model gives both calls the same result.
- Template rendering, flash messages and redirects are reduced to the message and the outcome. So is the form a failed full-stack validation re-renders.
- Accounts.FlaskRegister: a form without the `username`, `password` or `email` key raises `KeyError` before any check (xyz/app.py:115-117), which the framework answers with 400. The model takes all three keys as given.
- Registration form validation is an input: a valid form or none. The micro-framework variant's `int()`/`float()` parsing of the profile form is the `Invalid` submission.
- Floating-point values are not modelled. Height and weight are their printed text plus a non-zero flag.
- Classifier.SaysYes: upper-casing (`Strings.Upper`) is ASCII only. Python's `upper()` also maps non-ASCII letters, some onto ASCII ones: `'ſ'.upper()` is `'S'` and `'ß'.upper()` is `'SS'`. So a reply such as "yeſ" or "yeß" counts as medical in the source but not in the model.
- Profiles.BloodGroup: the full-stack form's empty choice is stored as `""`, which is falsy and shows no line. The model stores it as null. The micro-framework variant stores any non-empty text there, and the model restricts it to the eight choices.
- The full-stack chat's locally built `full_prompt` (medai/views.py:295-311) is never used, so it is not modelled.
- History.SortNewestFirst: turns with equal timestamps are kept in an order the store does not promise, so the model fixes one.
- Accounts.ConflictMessage: the store's natural order is taken to be insertion order.
- The login views and their messages are not modelled. They are not part of this model.

## Findings

| source | as written | input that shows it | evidently intended | confidence | as-written member | corrected member |
|---|---|---|---|---|---|---|
| medai/db.py:6-18 | `get_db_connection` declares `_mongo_client` and `_mongo_db` global and reads `_mongo_db`, but the module never binds either name, so the first read raises `NameError` on every call | any call, e.g. a signed-in user sending "What is a fever?" to the chat endpoint, which then answers 500 with the apology and logs nothing | both globals start as `None` at module level, so the first call creates and caches the handle | high, not executed | MedaiDb.AsWrittenAlwaysRaises | MedaiDb.CorrectedNeverRaises |

=== FILE: accounts.dfy ===
/** Registration in both variants: the username/email conflict check and
    the insertion of the new user together with an all-null profile. */
module Accounts {
  import opened Common
  import opened Profiles
  import opened Store
  import opened MedaiDb

  const FieldsRequired := "Username and password are required"
  const DbUnavailable := "Error connecting to database. Please try again later."
  const UsernameTaken := "Username already exists"
  const EmailTaken := "Email already exists"
  const RegistrationError := "An error occurred during registration. Please try again."

  datatype Outcome =
    | Registered(id: UserId)
    | Rejected(message: string)
    | FormInvalid               // the framework's form validation refused the input

  datatype Registration = Registration(outcome: Outcome, store: Store)

  /** The conflict lookup: by username, and also by email when one was given. */
  predicate MatchesLookup(u: User, username: string, email: string) {
    u.username == username || (email != "" && u.email == Some(email))
  }

  predicate NameTaken(s: Store, username: string) {
    exists u :: u in s.users && u.username == username
  }

  predicate EmailInUse(s: Store, email: string) {
    email != "" && exists u :: u in s.users && u.email == Some(email)
  }

  /** Record `k` is the one the lookup returns: it matches, and no earlier
      record does. */
  predicate FirstMatchAt(s: Store, username: string, email: string, k: int) {
    && 0 <= k < |s.users| && MatchesLookup(s.users[k], username, email)
    && forall j :: 0 <= j < k ==> !MatchesLookup(s.users[j], username, email)
  }

  /** The message for the record the lookup finds first: the username
      message if that record has the username, otherwise the email message.
      `None` when no record matches. */
  function ConflictMessage(s: Store, username: string, email: string): (m: Option<string>)
    ensures m.None? <==> !NameTaken(s, username) && !EmailInUse(s, email)
    ensures m == Some(UsernameTaken) <==>
      exists k :: FirstMatchAt(s, username, email, k) && s.users[k].username == username
    ensures m == Some(EmailTaken) <==>
      exists k :: FirstMatchAt(s, username, email, k) && s.users[k].username != username
    ensures NameTaken(s, username) && !EmailInUse(s, email) ==> m == Some(UsernameTaken)
    ensures !NameTaken(s, username) && EmailInUse(s, email) ==> m == Some(EmailTaken)
  {
    match FindFirst(s.users, (u: User) => MatchesLookup(u, username, email))
    case None =>
      None
    case Some(k) =>
      assert FirstMatchAt(s, username, email, k);
      assert forall k' :: FirstMatchAt(s, username, email, k') ==> k' == k;
      var u := s.users[k];
      if u.username == username then Some(UsernameTaken)
      else if email != "" && u.email == Some(email) then Some(EmailTaken)
      else assert false; None
  }

  /** When both the username and the email are taken, the message depends on
      which record comes first: an earlier record holding only the email
      gets the email message. */
  lemma FirstRecordDecides()
    ensures var s := Store([], [User(0, "ann", Some("a@x"), "h", 0), User(1, "bob", None, "h", 0)], [], [], 2);
      ConflictMessage(s, "bob", "a@x") == Some(EmailTaken) && NameTaken(s, "bob")
  {
    var s := Store([], [User(0, "ann", Some("a@x"), "h", 0), User(1, "bob", None, "h", 0)], [], [], 2);
    assert s.users[1] in s.users;
  }

  /** The new user record and its all-null profile. */
  function AddAccount(s: Store, username: string, email: string, passwordHash: string, now: nat): (s': Store)
    ensures InsertedAccount(s, s', s.nextId, username, email, passwordHash, now)
    ensures s'.authUsers == s.authUsers
  {
    var id := s.nextId;
    s.(users := s.users + [User(id, username, if email == "" then None else Some(email), passwordHash, now)],
       profiles := s.profiles + [ProfileDoc(id, EmptyProfile, now)],
       nextId := id + 1)
  }

  /** The application's collections after a successful registration: one
      more user, carrying a fresh id, the username, the hash and the email or
      null, one more profile for that id with every field null, the next id
      moved past it, and the conversations unchanged. The framework's user
      table is left to each caller, since only one variant writes it. */
  predicate InsertedAccount(s: Store, s': Store, id: UserId, username: string, email: string, passwordHash: string, now: nat) {
    && id == s.nextId && s'.nextId == id + 1
    && |s'.users| == |s.users| + 1 && s'.users[..|s.users|] == s.users
    && s'.users[|s.users|] == User(id, username, if email == "" then None else Some(email), passwordHash, now)
    && |s'.profiles| == |s.profiles| + 1 && s'.profiles[..|s.profiles|] == s.profiles
    && s'.profiles[|s.profiles|] == ProfileDoc(id, EmptyProfile, now)
    && s'.turns == s.turns
  }

  /** `register` of the micro-framework variant. */
  function FlaskRegister(s: Store, username: string, password: string, email: string,
                         passwordHash: string, dbUp: bool, now: nat): (r: Registration)
    ensures r.outcome.Registered? <==>
      username != "" && password != "" && dbUp && !NameTaken(s, username) && !EmailInUse(s, email)
    ensures r.outcome.Registered? ==>
      InsertedAccount(s, r.store, r.outcome.id, username, email, passwordHash, now) && r.store.authUsers == s.authUsers
    ensures !r.outcome.Registered? ==> r.store == s && r.outcome.Rejected?
    ensures username == "" || password == "" ==> r.outcome == Rejected(FieldsRequired)
    ensures username != "" && password != "" && !dbUp ==> r.outcome == Rejected(DbUnavailable)
    ensures username != "" && password != "" && dbUp && ConflictMessage(s, username, email).Some? ==>
      r.outcome == Rejected(ConflictMessage(s, username, email).value)
  {
    if username == "" || password == "" then Registration(Rejected(FieldsRequired), s)
    else if !dbUp then Registration(Rejected(DbUnavailable), s)
    else
      match ConflictMessage(s, username, email)
      case Some(m) => Registration(Rejected(m), s)
      case None => Registration(Registered(s.nextId), AddAccount(s, username, email, passwordHash, now))
  }

  /** The cleaned fields of a valid registration form. */
  datatype RegisterForm = RegisterForm(username: string, email: string, password: string)

  /** `register_view` of the full-stack variant: the framework's own user
      table is written first, and its unique username makes that insert
      raise when the name is already there. */
  function MedaiRegister(s: Store, form: Option<RegisterForm>, conn: Connection,
                         passwordHash: string, now: nat): (r: Registration)
    ensures form.None? ==> r == Registration(FormInvalid, s)
    ensures r.outcome.Registered? <==>
      && form.Some? && conn == Up
      && !NameTaken(s, form.value.username) && !EmailInUse(s, form.value.email)
      && form.value.username !in s.authUsers
    ensures r.outcome.Registered? ==>
      && InsertedAccount(s, r.store, r.outcome.id, form.value.username, form.value.email, passwordHash, now)
      && r.store.authUsers == s.authUsers + [form.value.username]
    ensures !r.outcome.Registered? ==> r.store == s
    ensures form.Some? && conn == Raises ==> r.outcome == Rejected(RegistrationError)
    ensures form.Some? && conn == Down ==> r.outcome == Rejected(DbUnavailable)
    ensures form.Some? && conn == Up && ConflictMessage(s, form.value.username, form.value.email).Some? ==>
      r.outcome == Rejected(ConflictMessage(s, form.value.username, form.value.email).value)
    ensures (form.Some? && conn == Up && ConflictMessage(s, form.value.username, form.value.email).None? &&
             form.value.username in s.authUsers) ==> r.outcome == Rejected(RegistrationError)
  {
    match form
    case None => Registration(FormInvalid, s)
    case Some(f) =>
      if conn == Raises then Registration(Rejected(RegistrationError), s)
      else if conn == Down then Registration(Rejected(DbUnavailable), s)
      else
        var conflict := ConflictMessage(s, f.username, f.email);
        if conflict.Some? then Registration(Rejected(conflict.value), s)
        else
          if f.username in s.authUsers then Registration(Rejected(RegistrationError), s)
          else
            var s' := AddAccount(s, f.username, f.email, passwordHash, now);
            assert conn == Up;
            assert !NameTaken(s, f.username) && !EmailInUse(s, f.email);
            Registration(Registered(s.nextId), s'.(authUsers := s.authUsers + [f.username]))
  }

  /** Adding an account keeps ids fresh and profiles one per user. */
  lemma AddAccountKeepsWellFormed(s: Store, username: string, email: string, passwordHash: string, now: nat)
    requires WellFormed(s)
    ensures WellFormed(AddAccount(s, username, email, passwordHash, now))
  {
    var s' := AddAccount(s, username, email, passwordHash, now);
    assert forall i :: 0 <= i < |s.users| ==> s'.users[i] == s.users[i];
    assert forall i :: 0 <= i < |s.profiles| ==> s'.profiles[i] == s.profiles[i];
  }

  /** Registration in the micro-framework variant preserves the store invariant. */
  lemma FlaskRegisterKeepsWellFormed(s: Store, username: string, password: string, email: string,
                                     passwordHash: string, dbUp: bool, now: nat)
    requires WellFormed(s)
    ensures WellFormed(FlaskRegister(s, username, password, email, passwordHash, dbUp, now).store)
  {
    AddAccountKeepsWellFormed(s, username, email, passwordHash, now);
  }

  /** Registration in the full-stack variant preserves the store invariant. */
  lemma MedaiRegisterKeepsWellFormed(s: Store, form: Option<RegisterForm>, conn: Connection,
                                     passwordHash: string, now: nat)
    requires WellFormed(s)
    ensures WellFormed(MedaiRegister(s, form, conn, passwordHash, now).store)
  {
    if form.Some? {
      AddAccountKeepsWellFormed(s, form.value.username, form.value.email, passwordHash, now);
      var s' := AddAccount(s, form.value.username, form.value.email, passwordHash, now);
      assert WellFormed(s'.(authUsers := s.authUsers + [form.value.username]));
    }
  }
}

=== FILE: classifier.dfy ===
/** The medical-query classifier of both variants: the model is asked for
    YES or NO and its reply is accepted as medical when "YES" occurs anywhere
    in the stripped, upper-cased text. The variants differ only in what a
    failed call means. */
module Classifier {
  import opened Common
  import opened Strings
  import opened Oracle

  const Yes := "YES"

  /** Upper-casing keeps whitespace as it is and never turns a non-space
      into a space. */
  lemma UpperKeepsSpaces(c: char)
    ensures IsSpace(UpperChar(c)) <==> IsSpace(c)
  {
  }

  /** An occurrence of a whitespace-free pattern lies inside the window
      `str.strip()` keeps. */
  lemma OccurrenceInsideStrip(t: string, pat: string, i: int)
    requires |pat| > 0 && forall k :: 0 <= k < |pat| ==> !IsSpace(pat[k])
    requires OccursAt(pat, Upper(t), i)
    ensures StripBounds(t).0 <= i && i + |pat| <= StripBounds(t).1
  {
    var u := Upper(t);
    assert u[i] == pat[0];
    UpperKeepsSpaces(t[i]);
    assert u[i + |pat| - 1] == pat[|pat| - 1];
    UpperKeepsSpaces(t[i + |pat| - 1]);
  }

  /** Upper-casing the stripped text is taking the same window of the
      upper-cased text. */
  lemma UpperOfStrip(t: string)
    ensures Upper(Strip(t)) == Upper(t)[StripBounds(t).0..StripBounds(t).1]
  {
  }

  /** An occurrence in a window of a text is one in the whole text. */
  lemma OccurrenceInWindow(u: string, lo: int, hi: int, pat: string, i: int)
    requires 0 <= lo <= hi <= |u|
    requires OccursAt(pat, u[lo..hi], i)
    ensures OccursAt(pat, u, lo + i)
  {
    var inner := u[lo..hi][i..i + |pat|];
    var outer := u[lo + i..lo + i + |pat|];
    assert forall k :: 0 <= k < |pat| ==> inner[k] == outer[k];
    assert outer == inner;
  }

  /** An occurrence inside a window of a text is one in the window. */
  lemma OccurrenceIntoWindow(u: string, lo: int, hi: int, pat: string, i: int)
    requires 0 <= lo <= i && i + |pat| <= hi <= |u|
    requires OccursAt(pat, u, i)
    ensures OccursAt(pat, u[lo..hi], i - lo)
  {
    var inner := u[lo..hi][i - lo..i - lo + |pat|];
    var outer := u[i..i + |pat|];
    assert forall k :: 0 <= k < |pat| ==> inner[k] == outer[k];
    assert inner == outer;
  }

  lemma WindowToWhole(t: string, pat: string, i: int)
    requires OccursAt(pat, Upper(Strip(t)), i)
    ensures OccursAt(pat, Upper(t), StripBounds(t).0 + i)
  {
    var (lo, hi) := StripBounds(t);
    UpperOfStrip(t);
    OccurrenceInWindow(Upper(t), lo, hi, pat, i);
  }

  lemma WholeToWindow(t: string, pat: string, i: int)
    requires |pat| > 0 && forall k :: 0 <= k < |pat| ==> !IsSpace(pat[k])
    requires OccursAt(pat, Upper(t), i)
    ensures OccursAt(pat, Upper(Strip(t)), i - StripBounds(t).0)
  {
    var (lo, hi) := StripBounds(t);
    OccurrenceInsideStrip(t, pat, i);
    UpperOfStrip(t);
    OccurrenceIntoWindow(Upper(t), lo, hi, pat, i);
  }

  /** Stripping before the substring test changes nothing for a pattern
      without whitespace: an occurrence can never overlap the stripped ends. */
  lemma StripIrrelevant(t: string, pat: string)
    requires forall k :: 0 <= k < |pat| ==> !IsSpace(pat[k])
    ensures Contains(Upper(Strip(t)), pat) <==> Contains(Upper(t), pat)
  {
    if Contains(Upper(Strip(t)), pat) {
      var i :| OccursAt(pat, Upper(Strip(t)), i);
      WindowToWhole(t, pat, i);
    }
    if Contains(Upper(t), pat) {
      var i :| OccursAt(pat, Upper(t), i);
      if |pat| == 0 {
        assert OccursAt(pat, Upper(Strip(t)), 0);
      } else {
        WholeToWindow(t, pat, i);
      }
    }
  }

  /** The answer a reply carries: "YES" somewhere in `text.strip().upper()`. */
  function SaysYes(text: string): (yes: bool)
    ensures yes <==> Contains(Upper(text), Yes)
  {
    StripIrrelevant(text, Yes);
    Contains(Upper(Strip(text)), Yes)
  }

  /** `is_medical_query` of the full-stack variant: a raised call denies. */
  function MedaiIsMedical(reply: Reply): (medical: bool)
    ensures medical <==> reply.Some? && Contains(Upper(reply.value), Yes)
  {
    match reply
    case None => false
    case Some(text) => SaysYes(text)
  }

  /** `is_medical_query` of the micro-framework variant: a raised call allows. */
  function FlaskIsMedical(reply: Reply): (medical: bool)
    ensures medical <==> reply.None? || Contains(Upper(reply.value), Yes)
  {
    match reply
    case None => true
    case Some(text) => SaysYes(text)
  }

  /** The variants disagree exactly on a raised call. */
  lemma VariantsDifferOnlyOnError(reply: Reply)
    ensures MedaiIsMedical(reply) != FlaskIsMedical(reply) <==> reply.None?
  {
  }

  /** Permissive parse: lower-case answers, trailing explanation and even a
      word merely containing the letters Y-E-S count as medical; "NO" does not. */
  lemma PermissiveParseExamples()
    ensures MedaiIsMedical(Some("yes"))
    ensures MedaiIsMedical(Some("Yes, it is"))
    ensures MedaiIsMedical(Some("EYES"))
    ensures !MedaiIsMedical(Some("NO"))
    ensures !MedaiIsMedical(Some(""))
  {
    assert OccursAt(Yes, Upper("yes"), 0);
    assert OccursAt(Yes, Upper("Yes, it is"), 0);
    assert OccursAt(Yes, Upper("EYES"), 1);
  }
}

=== FILE: common.dfy ===
/** The optional value used for the document store's nullable fields, for
    lookups that may find nothing and for a hosted-model call that may raise. */
module Common {

  datatype Option<+T> = None | Some(value: T)

  /** Index of the first element of `xs` satisfying `p`: the element a
      document-store `find_one` returns when documents are scanned in
      insertion order. */
  function FindFirst<T>(xs: seq<T>, p: T -> bool): (r: Option<nat>)
    ensures r.Some? ==> r.value < |xs| && p(xs[r.value])
    ensures r.Some? ==> forall j :: 0 <= j < r.value ==> !p(xs[j])
    ensures r.None? <==> forall j :: 0 <= j < |xs| ==> !p(xs[j])
  {
    if |xs| == 0 then None
    else if p(xs[0]) then Some(0)
    else
      match FindFirst(xs[1..], p)
      case None => None
      case Some(k) => Some(k + 1)
  }
}

=== FILE: exchange.dfy ===
/** What both chat endpoints share: the request body, the response, and
    the one conversation record a request may write. */
module Exchange {
  import opened Common
  import opened Strings
  import opened Oracle
  import opened Store

  const EnterMessage := "Please enter a message"

  /** The parsed request body: not a JSON object, an object without a
      `message` key, one whose `message` is text, or one whose `message` is
      not text (so that `.strip()` raises). */
  datatype Body = NotJson | NoMessage | Message(text: string) | NonTextMessage

  /** A JSON reply with its status, or the framework's own error page for
      an exception nothing caught. */
  datatype Response = Json(status: nat, text: string) | Uncaught

  datatype ChatResult = ChatResult(response: Response, store: Store, calls: seq<Call>)

  /** The stripped message, or `None` when reading it raises. A missing key
      reads as the empty message; a text message is blank exactly when it is
      all whitespace, and otherwise is the text with only whitespace cut
      from either end. */
  function MessageOf(body: Body): (m: Option<string>)
    ensures m.Some? <==> body.NoMessage? || body.Message?
    ensures body.NoMessage? ==> m == Some("")
    ensures body.Message? ==> (m.value == "" <==> AllSpace(body.text))
    ensures m.Some? && m.value != "" ==> !IsSpace(m.value[0]) && !IsSpace(m.value[|m.value| - 1])
    ensures body.Message? && m.value != "" ==> exists i ::
      && OccursAt(m.value, body.text, i)
      && AllSpace(body.text[..i]) && AllSpace(body.text[i + |m.value|..])
  {
    match body
    case NoMessage => Some("")
    case Message(t) =>
      var b := StripBounds(t);
      assert OccursAt(Strip(t), t, b.0);
      assert AllSpace(t[..b.0]) && AllSpace(t[b.0 + |Strip(t)|..]);
      Some(Strip(t))
    case _ => None
  }

  /** The message is the user's own text: any non-blank text with no
      whitespace at either end that sits in the body's text with only
      whitespace around it is the message read from that body. */
  lemma MessageIsTheText(body: Body, w: string, i: int)
    requires body.Message? && w != "" && !IsSpace(w[0]) && !IsSpace(w[|w| - 1])
    requires OccursAt(w, body.text, i) && AllSpace(body.text[..i]) && AllSpace(body.text[i + |w|..])
    ensures MessageOf(body) == Some(w)
  {
    StripUnique(body.text, w, i);
  }

  /** Log the turn for `owner`, if there is one to log it for. */
  function Record(s: Store, owner: Option<UserId>, message: string, answer: string,
                  now: nat, tag: Option<QueryType>): (s': Store)
    ensures owner.None? ==> s' == s
    ensures owner.Some? ==> s' == LogTurn(s, Turn(owner.value, message, answer, now, tag))
  {
    match owner
    case None => s
    case Some(id) => LogTurn(s, Turn(id, message, answer, now, tag))
  }
}

=== FILE: flask_chat.dfy ===
/** The micro-framework variant's chat endpoint: one classification that
    only decides whether the profile block is prepended, then always one
    generation. */
module FlaskChat {
  import opened Common
  import opened Strings
  import opened Oracle
  import opened Classifier
  import opened Profiles
  import opened Prompt
  import opened Store
  import opened Exchange

  /** The profile the prompt may use: the session user's document, looked
      up only when a handle was obtained. */
  function SessionProfile(session: Option<UserId>, dbUp: bool, s: Store): (p: Option<Profile>)
    ensures p.Some? ==> session.Some? && dbUp && ProfileIndex(s, session.value).Some?
    ensures session.Some? && dbUp ==> p == ProfileOf(s, session.value)
  {
    if session.Some? && dbUp then ProfileOf(s, session.value) else None
  }

  /** `chat`: reading the body is outside the `try`, so a body without a
      readable message fails with the framework's error page. */
  function Chat(body: Body, session: Option<UserId>, dbUp: bool, s: Store, replies: seq<Reply>, now: nat): (r: ChatResult)
    ensures MessageOf(body).None? ==> r == ChatResult(Uncaught, s, [])
    ensures MessageOf(body) == Some("") ==> r == ChatResult(Json(400, EnterMessage), s, [])
    ensures MessageOf(body).Some? && MessageOf(body).value != "" ==>
      r.calls == [Classify(MessageOf(body).value),
                  Generate(FlaskPrompt(FlaskIsMedical(Ask(replies, 0)), SessionProfile(session, dbUp, s), MessageOf(body).value))]
    ensures r.store.users == s.users && r.store.profiles == s.profiles && r.store.nextId == s.nextId
    ensures r.store != s ==>
      && r.response.Json? && r.response.status == 200 && session.Some? && dbUp
      && r.store == LogTurn(s, Turn(session.value, MessageOf(body).value, r.response.text, now, None))
    ensures MessageOf(body).Some? && MessageOf(body).value != "" && Ask(replies, 1).None? ==>
      r.response == Json(500, Apology) && r.store == s
    ensures MessageOf(body).Some? && MessageOf(body).value != "" && Ask(replies, 1).Some? ==>
      r.response == Json(200, Strip(Ask(replies, 1).value)) &&
      (r.store != s <==> session.Some? && dbUp)
  {
    match MessageOf(body)
    case None => ChatResult(Uncaught, s, [])
    case Some(message) =>
      if message == "" then ChatResult(Json(400, EnterMessage), s, [])
      else
        var isMedical := FlaskIsMedical(Ask(replies, 0));
        var prompt := FlaskPrompt(isMedical, SessionProfile(session, dbUp, s), message);
        var calls := [Classify(message), Generate(prompt)];
        match Ask(replies, 1)
        case None => ChatResult(Json(500, Apology), s, calls)
        case Some(t) =>
          var answer := Strip(t);
          var owner := if session.Some? && dbUp then session else None;
          assert owner.Some? ==> LogTurn(s, Turn(owner.value, message, answer, now, None)) != s by {
            if owner.Some? {
              assert |LogTurn(s, Turn(owner.value, message, answer, now, None)).turns| == |s.turns| + 1;
            }
          }
          ChatResult(Json(200, answer), Record(s, owner, message, answer, now, None), calls)
  }

  /** Unlike the full-stack variant, a non-medical message is never refused:
      it is sent to the generator as it stands, without the profile block. */
  lemma NonMedicalSentVerbatim(body: Body, session: Option<UserId>, dbUp: bool, s: Store, replies: seq<Reply>, now: nat)
    requires MessageOf(body).Some? && MessageOf(body).value != ""
    requires !FlaskIsMedical(Ask(replies, 0))
    ensures Chat(body, session, dbUp, s, replies, now).calls[1] == Generate(MessageOf(body).value)
  {
  }

  /** A failing classifier call counts as medical, so the stored profile's
      lines are sent along. */
  lemma ClassifierErrorKeepsProfile(body: Body, id: UserId, s: Store, replies: seq<Reply>, now: nat, f: Field)
    requires MessageOf(body).Some? && MessageOf(body).value != ""
    requires Ask(replies, 0).None?
    requires ProfileOf(s, id).Some? && Present(ProfileOf(s, id).value, f)
    ensures var g := Chat(body, Some(id), true, s, replies, now).calls[1];
      g.Generate? && Contains(g.prompt, Line(ProfileOf(s, id).value, f))
  {
    var p := ProfileOf(s, id).value;
    var message := MessageOf(body).value;
    assert FlaskIsMedical(Ask(replies, 0));
    assert SessionProfile(Some(id), true, s) == Some(p);
    var prompt := FlaskPrompt(true, Some(p), message);
    assert Chat(body, Some(id), true, s, replies, now).calls[1] == Generate(prompt);
    PromptKeepsPrefixLines(p, message, f);
  }

  /** A truthy field's line survives into a medical prompt. */
  lemma PromptKeepsPrefixLines(p: Profile, message: string, f: Field)
    requires Present(p, f)
    ensures Contains(FlaskPrompt(true, Some(p), message), Line(p, f))
  {
    var prefix := FlaskPrefix(true, Some(p));
    assert Contains(prefix, Line(p, f));
    ContainsBeforeSuffix(prefix, message, Line(p, f));
  }
}

=== FILE: history.dfy ===
/** The conversation history shown on the profile page of both variants:
    the user's turns, newest first, at most twenty, projected onto message,
    response and timestamp. */
module History {
  import opened Store

  const HistoryLimit := 20

  datatype Entry = Entry(userMessage: string, aiResponse: string, timestamp: nat)

  predicate NewestFirst(ts: seq<Turn>) {
    forall i, j :: 0 <= i < j < |ts| ==> ts[i].timestamp >= ts[j].timestamp
  }

  /** The turns of user `id`, in insertion order. */
  function TurnsOf(ts: seq<Turn>, id: UserId): (r: seq<Turn>)
    ensures forall i :: 0 <= i < |r| ==> r[i].userId == id
    ensures forall t :: multiset(r)[t] == (if t.userId == id then multiset(ts)[t] else 0)
  {
    if |ts| == 0 then []
    else
      assert ts == [ts[0]] + ts[1..];
      var rest := TurnsOf(ts[1..], id);
      if ts[0].userId == id then [ts[0]] + rest else rest
  }

  lemma ConsNewestFirst(x: Turn, rest: seq<Turn>)
    requires NewestFirst(rest)
    requires forall y :: y in rest ==> x.timestamp >= y.timestamp
    ensures NewestFirst([x] + rest)
  {
    forall i, j | 0 <= i < j < |[x] + rest|
      ensures ([x] + rest)[i].timestamp >= ([x] + rest)[j].timestamp
    {
      if i == 0 {
        assert ([x] + rest)[j] == rest[j - 1];
      }
    }
  }

  /** The head of a newest-first sequence is no older than anything after it. */
  lemma HeadIsNewest(ts: seq<Turn>)
    requires NewestFirst(ts) && |ts| > 0
    ensures forall y :: y in multiset(ts[1..]) ==> ts[0].timestamp >= y.timestamp
  {
    var tail := ts[1..];
    forall y: Turn | y in multiset(tail)
      ensures ts[0].timestamp >= y.timestamp
    {
      var j :| 0 <= j < |tail| && tail[j] == y;
      assert ts[j + 1] == y;
    }
  }

  /** The recursive step of the insertion: keeping the head in front of the
      tail with `t` inserted is newest first and adds exactly `t`. */
  lemma InsertBehindHead(t: Turn, ts: seq<Turn>, rest: seq<Turn>)
    requires NewestFirst(ts) && |ts| > 0 && t.timestamp < ts[0].timestamp
    requires NewestFirst(rest) && multiset(rest) == multiset(ts[1..]) + multiset{t}
    ensures NewestFirst([ts[0]] + rest)
    ensures multiset([ts[0]] + rest) == multiset(ts) + multiset{t}
  {
    assert ts == [ts[0]] + ts[1..];
    HeadIsNewest(ts);
    forall y | y in rest
      ensures ts[0].timestamp >= y.timestamp
    {
      assert y in multiset(rest);
      assert y == t || y in multiset(ts[1..]);
    }
    ConsNewestFirst(ts[0], rest);
  }

  /** Insert `t` into a newest-first sequence after every turn at least as new. */
  function InsertByTime(t: Turn, ts: seq<Turn>): (r: seq<Turn>)
    requires NewestFirst(ts)
    ensures NewestFirst(r)
    ensures multiset(r) == multiset(ts) + multiset{t}
  {
    if |ts| == 0 then [t]
    else if ts[0].timestamp <= t.timestamp then
      ConsNewestFirst(t, ts);
      [t] + ts
    else
      var rest := InsertByTime(t, ts[1..]);
      InsertBehindHead(t, ts, rest);
      [ts[0]] + rest
  }

  /** The sort by timestamp, descending. */
  function SortNewestFirst(ts: seq<Turn>): (r: seq<Turn>)
    ensures NewestFirst(r)
    ensures multiset(r) == multiset(ts)
  {
    if |ts| == 0 then []
    else
      assert ts == [ts[0]] + ts[1..];
      InsertByTime(ts[0], SortNewestFirst(ts[1..]))
  }

  /** A prefix of a newest-first sequence holds the newest of its elements:
      whatever is left out is no newer than anything kept. */
  lemma PrefixIsNewest(sorted: seq<Turn>, k: nat)
    requires NewestFirst(sorted) && k <= |sorted|
    ensures NewestFirst(sorted[..k])
    ensures multiset(sorted[..k]) <= multiset(sorted)
    ensures forall t :: t in multiset(sorted) - multiset(sorted[..k]) ==>
      forall i :: 0 <= i < k ==> sorted[i].timestamp >= t.timestamp
  {
    assert sorted == sorted[..k] + sorted[k..];
    assert multiset(sorted) == multiset(sorted[..k]) + multiset(sorted[k..]);
    forall t | t in multiset(sorted) - multiset(sorted[..k])
      ensures forall i :: 0 <= i < k ==> sorted[i].timestamp >= t.timestamp
    {
      assert t in multiset(sorted[k..]);
      var j :| 0 <= j < |sorted[k..]| && sorted[k..][j] == t;
      assert sorted[k + j] == t;
    }
  }

  /** Elements of a permutation of the user's turns belong to the user and
      to the store. */
  lemma MembersOfMine(ts: seq<Turn>, id: UserId, r: seq<Turn>)
    requires multiset(r) <= multiset(TurnsOf(ts, id))
    ensures forall i :: 0 <= i < |r| ==> r[i].userId == id && r[i] in ts
  {
    forall i | 0 <= i < |r|
      ensures r[i].userId == id && r[i] in ts
    {
      assert r[i] in multiset(r);
      assert multiset(TurnsOf(ts, id))[r[i]] > 0;
    }
  }

  /** `find({"user_id": id}).sort("timestamp", -1).limit(20)`: the user's
      turns, newest first, cut to the limit; every turn left out is no newer
      than any turn returned. */
  function RecentTurns(ts: seq<Turn>, id: UserId): (r: seq<Turn>)
    ensures |r| == if |TurnsOf(ts, id)| < HistoryLimit then |TurnsOf(ts, id)| else HistoryLimit
    ensures forall i :: 0 <= i < |r| ==> r[i].userId == id && r[i] in ts
    ensures NewestFirst(r)
    ensures multiset(r) <= multiset(TurnsOf(ts, id))
    ensures forall t :: t in multiset(TurnsOf(ts, id)) - multiset(r) ==>
      forall i :: 0 <= i < |r| ==> r[i].timestamp >= t.timestamp
  {
    var mine := TurnsOf(ts, id);
    var sorted := SortNewestFirst(mine);
    assert |sorted| == |mine| by {
      assert |multiset(sorted)| == |multiset(mine)|;
    }
    var k := if |sorted| < HistoryLimit then |sorted| else HistoryLimit;
    PrefixIsNewest(sorted, k);
    MembersOfMine(ts, id, sorted[..k]);
    sorted[..k]
  }

  /** The history as displayed: the recent turns projected onto message,
      response and timestamp (no user id, no tag). */
  function HistoryEntries(ts: seq<Turn>, id: UserId): (h: seq<Entry>)
    ensures |h| <= HistoryLimit
    ensures |h| == |RecentTurns(ts, id)|
    ensures forall i :: 0 <= i < |h| ==>
      h[i] == Entry(RecentTurns(ts, id)[i].userMessage, RecentTurns(ts, id)[i].aiResponse, RecentTurns(ts, id)[i].timestamp)
  {
    var r := RecentTurns(ts, id);
    seq(|r|, i requires 0 <= i < |r| => Entry(r[i].userMessage, r[i].aiResponse, r[i].timestamp))
  }
}

=== FILE: medai_ai.dfy ===
/** The full-stack variant's answer pipeline: classify the message, refuse
    a non-medical one, otherwise generate from the composed prompt. */
module MedaiAi {
  import opened Common
  import opened Strings
  import opened Oracle
  import opened Classifier
  import opened Profiles
  import opened Prompt

  /** The answer text and the model calls made to obtain it. */
  datatype Answer = Answer(text: string, calls: seq<Call>)

  /** `get_ai_response(message, user_profile)`. */
  function GetAiResponse(message: string, profile: Option<Profile>, replies: seq<Reply>): (a: Answer)
    ensures |a.calls| >= 1 && a.calls[0] == Classify(message)
    ensures !MedaiIsMedical(Ask(replies, 0)) ==> a == Answer(Refusal, [Classify(message)])
    ensures MedaiIsMedical(Ask(replies, 0)) ==> a.calls == [Classify(message), Generate(MedaiPrompt(message, profile))]
    ensures MedaiIsMedical(Ask(replies, 0)) && Ask(replies, 1).None? ==> a.text == Apology
    ensures MedaiIsMedical(Ask(replies, 0)) && Ask(replies, 1).Some? ==>
      a.text == Strip(Ask(replies, 1).value)
  {
    if !MedaiIsMedical(Ask(replies, 0)) then Answer(Refusal, [Classify(message)])
    else
      var calls := [Classify(message), Generate(MedaiPrompt(message, profile))];
      match Ask(replies, 1)
      case None => Answer(Apology, calls)
      case Some(t) => Answer(Strip(t), calls)
  }

  /** The generator is asked exactly when the classifier said yes, and the
      answer is then one of three kinds: the refusal, the apology, or a reply
      trimmed of surrounding whitespace. */
  lemma GenerationOnlyWhenMedical(message: string, profile: Option<Profile>, replies: seq<Reply>)
    ensures var a := GetAiResponse(message, profile, replies);
      && ((exists i :: 0 <= i < |a.calls| && a.calls[i].Generate?) <==> MedaiIsMedical(Ask(replies, 0)))
      && (a.text == Refusal || a.text == Apology ||
          (Ask(replies, 1).Some? && a.text == Strip(Ask(replies, 1).value)))
  {
    var a := GetAiResponse(message, profile, replies);
    if MedaiIsMedical(Ask(replies, 0)) {
      assert a.calls[1].Generate?;
    }
  }

  /** A failing classifier call counts as non-medical: the answer is the
      refusal and the generator is never asked. */
  lemma ClassifierErrorRefuses(message: string, profile: Option<Profile>, replies: seq<Reply>)
    requires Ask(replies, 0).None?
    ensures GetAiResponse(message, profile, replies) == Answer(Refusal, [Classify(message)])
  {
  }

  /** A generated answer starts and ends with a non-whitespace character. */
  lemma GeneratedAnswerIsTrimmed(message: string, profile: Option<Profile>, replies: seq<Reply>)
    requires MedaiIsMedical(Ask(replies, 0)) && Ask(replies, 1).Some?
    requires !AllSpace(Ask(replies, 1).value)
    ensures var t := GetAiResponse(message, profile, replies).text;
      |t| > 0 && !IsSpace(t[0]) && !IsSpace(t[|t| - 1])
  {
    var a := GetAiResponse(message, profile, replies);
    var trimmed := Strip(Ask(replies, 1).value);
    assert a.text == trimmed;
  }
}

=== FILE: medai_chat.dfy ===
/** The full-stack variant's chat endpoint. It classifies the message
    itself, answers a non-medical one with the refusal, and otherwise hands
    the message to the answer pipeline, which classifies it again. */
module MedaiChat {
  import opened Common
  import opened Strings
  import opened Oracle
  import opened Classifier
  import opened Profiles
  import opened Prompt
  import opened Store
  import opened MedaiDb
  import opened MedaiAi
  import opened Exchange

  datatype Identity = Anonymous | Authenticated(username: string)

  /** The user a turn is logged for: a signed-in user whose record the
      store holds, when a handle was obtained. */
  function Owner(who: Identity, conn: Connection, s: Store): (owner: Option<UserId>)
    ensures owner.Some? <==> who.Authenticated? && conn == Up && UserNamed(s, who.username).Some?
    ensures owner.Some? ==> exists u :: u in s.users && u.username == who.username && u.id == owner.value
    ensures owner.Some? ==> owner.value == UserNamed(s, who.username).value.id
  {
    if who.Authenticated? && conn == Up then
      match UserNamed(s, who.username)
      case None => None
      case Some(u) => Some(u.id)
    else None
  }

  /** `chat_api`: every exception is caught and answered with the apology. */
  function ChatApi(body: Body, who: Identity, conn: Connection, s: Store, replies: seq<Reply>, now: nat): (r: ChatResult)
    ensures MessageOf(body).None? ==> r == ChatResult(Json(500, Apology), s, [])
    ensures MessageOf(body) == Some("") ==> r == ChatResult(Json(400, EnterMessage), s, [])
    ensures MessageOf(body).Some? && MessageOf(body).value != "" ==>
      r == Respond(MessageOf(body).value, who, conn, s, replies, now)
  {
    match MessageOf(body)
    case None => ChatResult(Json(500, Apology), s, [])
    case Some(message) =>
      if message == "" then ChatResult(Json(400, EnterMessage), s, [])
      else Respond(message, who, conn, s, replies, now)
  }

  /** The answer to a non-blank message. At most one turn is logged, for a
      signed-in user with a record, carrying the answer sent back and the
      first verdict as its tag; the generator is only asked after both
      classifications said yes. */
  function Respond(message: string, who: Identity, conn: Connection, s: Store, replies: seq<Reply>, now: nat): (r: ChatResult)
    requires message != ""
    ensures r.response.Json? && |r.calls| >= 1 && r.calls[0] == Classify(message)
    ensures who.Authenticated? && conn == Raises ==> r == ChatResult(Json(500, Apology), s, [Classify(message)])
    ensures Owner(who, conn, s).None? ==> r.store == s
    ensures Owner(who, conn, s).Some? ==>
      r.store == LogTurn(s, Turn(Owner(who, conn, s).value, message, r.response.text, now,
                                 Some(if MedaiIsMedical(Ask(replies, 0)) then Medical else NonMedical)))
    ensures forall i :: 0 <= i < |r.calls| && r.calls[i].Generate? ==>
      MedaiIsMedical(Ask(replies, 0)) && MedaiIsMedical(Ask(replies, 1))
  {
    if who.Authenticated? && conn == Raises then ChatResult(Json(500, Apology), s, [Classify(message)])
    else
      var owner := Owner(who, conn, s);
      if !MedaiIsMedical(Ask(replies, 0)) then
        ChatResult(Json(200, Refusal), Record(s, owner, message, Refusal, now, Some(NonMedical)), [Classify(message)])
      else Delegate(message, owner, s, replies, now)
  }

  /** The medical branch of `Respond`: the pipeline answers on the remaining
      replies, with the owner's stored profile, and the turn is tagged
      medical. */
  function Delegate(message: string, owner: Option<UserId>, s: Store, replies: seq<Reply>, now: nat): (r: ChatResult)
    ensures r.response.Json? && |r.calls| >= 1 && r.calls[0] == Classify(message)
    ensures r.store == Record(s, owner, message, r.response.text, now, Some(Medical))
    ensures forall i :: 0 <= i < |r.calls| && r.calls[i].Generate? ==> MedaiIsMedical(Ask(replies, 1))
  {
    var profile := if owner.Some? then ProfileOf(s, owner.value) else None;
    var a := GetAiResponse(message, profile, Skip(replies, 1));
    var answer := a.text;
    var calls := [Classify(message)] + a.calls;
    assert forall i :: 0 <= i < |calls| && calls[i].Generate? ==> MedaiIsMedical(Ask(replies, 1)) by {
      assert Ask(Skip(replies, 1), 0) == Ask(replies, 1);
      if !MedaiIsMedical(Ask(replies, 1)) {
        assert calls == [Classify(message), Classify(message)];
      }
    }
    ChatResult(Json(200, answer), Record(s, owner, message, answer, now, Some(Medical)), calls)
  }

  /** A non-blank message is classified first; a non-medical one is answered
      with the refusal after that single call. */
  lemma ChatRefusesNonMedical(body: Body, who: Identity, conn: Connection, s: Store, replies: seq<Reply>, now: nat)
    requires MessageOf(body).Some? && MessageOf(body).value != ""
    requires !(who.Authenticated? && conn == Raises)
    requires !MedaiIsMedical(Ask(replies, 0))
    ensures var r := ChatApi(body, who, conn, s, replies, now);
      r.response == Json(200, Refusal) && r.calls == [Classify(MessageOf(body).value)]
  {
  }

  /** A medical message is answered by the pipeline on the remaining
      replies, with the signed-in user's stored profile when there is one. */
  lemma ChatDelegatesMedical(body: Body, who: Identity, conn: Connection, s: Store, replies: seq<Reply>, now: nat)
    requires MessageOf(body).Some? && MessageOf(body).value != ""
    requires !(who.Authenticated? && conn == Raises)
    requires MedaiIsMedical(Ask(replies, 0))
    ensures var owner := Owner(who, conn, s);
      var a := GetAiResponse(MessageOf(body).value, if owner.Some? then ProfileOf(s, owner.value) else None, Skip(replies, 1));
      var r := ChatApi(body, who, conn, s, replies, now);
      && r.response == Json(200, a.text)
      && r.calls == [Classify(MessageOf(body).value)] + a.calls
  {
  }

  /** The message is classified twice; when the second verdict is no
      after a first yes, the turn is logged as medical although its answer
      is the refusal. */
  lemma RefusalLoggedAsMedical(message: string, username: string, s: Store, replies: seq<Reply>, now: nat)
    requires message != "" && UserNamed(s, username).Some?
    requires MedaiIsMedical(Ask(replies, 0)) && !MedaiIsMedical(Ask(replies, 1))
    ensures Respond(message, Authenticated(username), Up, s, replies, now).store
      == LogTurn(s, Turn(UserNamed(s, username).value.id, message, Refusal, now, Some(Medical)))
  {
    assert Ask(Skip(replies, 1), 0) == Ask(replies, 1);
  }

  /** Two replies that make the verdicts differ. */
  lemma VerdictsCanDiffer()
    ensures MedaiIsMedical(Ask([Some("yes"), Some("NO")], 0))
    ensures !MedaiIsMedical(Ask([Some("yes"), Some("NO")], 1))
  {
    PermissiveParseExamples();
    assert Ask([Some("yes"), Some("NO")], 0) == Some("yes");
    assert Ask([Some("yes"), Some("NO")], 1) == Some("NO");
  }

  /** With the connection function as written, every signed-in request with
      a message ends in the apology with status 500, and nothing is logged. */
  lemma SignedInChatFailsAsWritten(body: Body, username: string, s: Store, replies: seq<Reply>, now: nat, clientOk: bool)
    requires MessageOf(body).Some? && MessageOf(body).value != ""
    ensures var conn := Connect(AsWrittenAtImport, clientOk).0;
      ChatApi(body, Authenticated(username), conn, s, replies, now)
        == ChatResult(Json(500, Apology), s, [Classify(MessageOf(body).value)])
  {
  }

  /** With the globals initialised and a reachable store, a signed-in user
      with a record gets an answer and the turn is logged. */
  lemma SignedInChatAnswersCorrected(body: Body, username: string, s: Store, replies: seq<Reply>, now: nat)
    requires MessageOf(body).Some? && MessageOf(body).value != ""
    requires UserNamed(s, username).Some?
    ensures var conn := Connect(CorrectedAtImport, true).0;
      var r := ChatApi(body, Authenticated(username), conn, s, replies, now);
      r.response.status == 200 && |r.store.turns| == |s.turns| + 1
  {
  }
}

=== FILE: medai_db.dfy ===
/** How the full-stack variant obtains its store handle. Its connection
    function keeps the handle in two module globals and creates it on first
    use; reading a global that was never bound raises `NameError`. */
module MedaiDb {

  /** What one call of the connection function gives a handler: a usable
      handle, no handle (creating the client failed), or an exception. */
  datatype Connection = Up | Down | Raises

  /** The module state the connection function reads: whether the name of
      the cached handle is bound at all, and whether it holds a handle
      (bound to `None` otherwise). */
  datatype Globals = Globals(bound: bool, cached: bool)

  /** The module as written never assigns the globals at import time. */
  const AsWrittenAtImport := Globals(false, false)

  /** The evident intent: both globals start out as `None`. */
  const CorrectedAtImport := Globals(true, false)

  /** One call: read the cached handle (raising if the name is unbound),
      create and cache one if there is none, report failure as no handle. */
  function Connect(g: Globals, clientOk: bool): (r: (Connection, Globals))
    ensures r.0 == Raises <==> !g.bound
    ensures r.1.bound == g.bound
    ensures g.bound && (g.cached || clientOk) ==> r.0 == Up && r.1.cached
    ensures g.bound && !g.cached && !clientOk ==> r.0 == Down && r.1 == g
  {
    if !g.bound then (Raises, g)
    else if g.cached then (Up, g)
    else if clientOk then (Up, Globals(true, true))
    else (Down, g)
  }

  /** The results of successive calls; `clientOk[i]` says whether creating
      the client would succeed at call `i`. */
  function ConnectAll(g: Globals, clientOk: seq<bool>): (rs: seq<Connection>)
    ensures |rs| == |clientOk|
    decreases |clientOk|
  {
    if |clientOk| == 0 then []
    else
      var (c, g') := Connect(g, clientOk[0]);
      [c] + ConnectAll(g', clientOk[1..])
  }

  /** As written, every call of the process's lifetime raises: the first
      statement reads an unbound global, so nothing is ever cached. */
  lemma {:induction false} AsWrittenAlwaysRaises(clientOk: seq<bool>)
    ensures forall i :: 0 <= i < |clientOk| ==> ConnectAll(AsWrittenAtImport, clientOk)[i] == Raises
  {
    if |clientOk| > 0 {
      AsWrittenAlwaysRaises(clientOk[1..]);
    }
  }

  /** With the globals initialised, no call raises, and once a handle has
      been obtained every later call returns it. */
  lemma {:induction false} CorrectedNeverRaises(g: Globals, clientOk: seq<bool>)
    requires g.bound
    ensures forall i :: 0 <= i < |clientOk| ==> ConnectAll(g, clientOk)[i] != Raises
    ensures forall i, j :: 0 <= i < j < |clientOk| && ConnectAll(g, clientOk)[i] == Up ==>
      ConnectAll(g, clientOk)[j] == Up
    decreases |clientOk|
  {
    if |clientOk| > 0 {
      var (c, g') := Connect(g, clientOk[0]);
      CorrectedNeverRaises(g', clientOk[1..]);
      var rs := ConnectAll(g, clientOk);
      assert rs == [c] + ConnectAll(g', clientOk[1..]);
      if c == Up {
        UpStaysUp(g', clientOk[1..]);
      }
    }
  }

  lemma {:induction false} UpStaysUp(g: Globals, clientOk: seq<bool>)
    requires g.bound && g.cached
    ensures forall i :: 0 <= i < |clientOk| ==> ConnectAll(g, clientOk)[i] == Up
    decreases |clientOk|
  {
    if |clientOk| > 0 {
      UpStaysUp(Connect(g, clientOk[0]).1, clientOk[1..]);
    }
  }
}

=== FILE: oracle.dfy ===
/** The hosted generative model, seen from the handlers: every call either
    returns a text reply or raises. A run is fixed by the sequence of replies
    the service would give to its successive calls, and records the calls it
    made, in order. */
module Oracle {
  import opened Common

  /** `Some(text)` is the reply's text, `None` means the call raised (service
      error, blocked reply, or a model object that failed to initialise). */
  type Reply = Option<string>

  datatype Call =
    | Classify(query: string)     // a classification request about `query`
    | Generate(prompt: string)    // a generation request for `prompt`

  /** The reply to the `i`-th call; calls beyond the given replies raise. */
  function Ask(replies: seq<Reply>, i: nat): Reply {
    if i < |replies| then replies[i] else None
  }

  /** The replies left for a callee after `n` calls have been answered. */
  function Skip(replies: seq<Reply>, n: nat): (rest: seq<Reply>)
    ensures forall i: nat :: Ask(rest, i) == Ask(replies, n + i)
  {
    if n <= |replies| then replies[n..] else []
  }
}

=== FILE: profile_pages.dfy ===
/** The profile page of both variants: an optional update of the stored
    profile, then a read that creates an all-null profile when none exists,
    then the recent conversation history. */
module ProfilePages {
  import opened Common
  import opened Profiles
  import opened Store
  import opened History
  import opened MedaiDb

  const Updated := "Medical profile updated successfully"
  const UpdateFailed := "An error occurred while updating your profile"
  const NoDatabase := "Error connecting to database"
  const NoUser := "User profile not found"

  /** What a request carries: no form (a GET), a form that yields a profile,
      or one that does not (a number that does not parse in the
      micro-framework variant, a form that fails validation in the
      full-stack one). */
  datatype Submission = NoSubmission | Valid(profile: Profile) | Invalid

  datatype Page = Page(doc: ProfileDoc, history: seq<Entry>, notice: Option<string>)

  datatype Outcome = Shown(page: Page) | Redirected(message: string) | ServerError

  datatype ProfileResponse = ProfileResponse(outcome: Outcome, store: Store)

  /** `update_one({"user_id": id}, {"$set": ...})` without upsert: the first
      document of the user gets the new fields and time; with no document
      nothing is written. */
  function SetProfile(s: Store, id: UserId, p: Profile, now: nat): (s': Store)
    ensures s'.users == s.users && s'.turns == s.turns && s'.authUsers == s.authUsers && s'.nextId == s.nextId
    ensures |s'.profiles| == |s.profiles|
    ensures ProfileIndex(s, id).None? ==> s' == s
    ensures ProfileIndex(s, id).Some? ==> s'.profiles[ProfileIndex(s, id).value] == ProfileDoc(id, p, now)
    ensures forall j :: 0 <= j < |s.profiles| && Some(j) != ProfileIndex(s, id) ==> s'.profiles[j] == s.profiles[j]
  {
    match ProfileIndex(s, id)
    case None => s
    case Some(k) => s.(profiles := s.profiles[k := ProfileDoc(id, p, now)])
  }

  /** The read half of the page: the stored document, or a fresh all-null
      one that is inserted, and the history. */
  function Render(s: Store, id: UserId, now: nat, notice: Option<string>): (r: ProfileResponse)
    ensures r.outcome.Shown? && r.outcome.page.doc.userId == id && r.outcome.page.notice == notice
    ensures r.outcome.page.history == HistoryEntries(s.turns, id)
    ensures ProfileIndex(s, id).Some? ==>
      r.outcome.page.doc == s.profiles[ProfileIndex(s, id).value] && r.store == s
    ensures ProfileIndex(s, id).None? ==>
      r.outcome.page.doc == ProfileDoc(id, EmptyProfile, now) &&
      r.store == s.(profiles := s.profiles + [ProfileDoc(id, EmptyProfile, now)])
    ensures ProfileOf(r.store, id) == Some(r.outcome.page.doc.profile)
    ensures ProfileIndex(r.store, id).Some? && r.store.profiles[ProfileIndex(r.store, id).value] == r.outcome.page.doc
    ensures |r.store.profiles| >= |s.profiles|
    ensures forall j :: 0 <= j < |s.profiles| ==> r.store.profiles[j] == s.profiles[j]
  {
    match ProfileIndex(s, id)
    case Some(k) =>
      ProfileResponse(Shown(Page(s.profiles[k], HistoryEntries(s.turns, id), notice)), s)
    case None =>
      var doc := ProfileDoc(id, EmptyProfile, now);
      var s' := s.(profiles := s.profiles + [doc]);
      assert ProfileIndex(s', id) == Some(|s.profiles|) by {
        assert s'.profiles[|s.profiles|] == doc;
        assert forall j :: 0 <= j < |s.profiles| ==> s'.profiles[j] == s.profiles[j];
      }
      ProfileResponse(Shown(Page(doc, HistoryEntries(s.turns, id), notice)), s')
  }

  /** The flash message of the micro-framework variant's page. */
  function NoticeFor(sub: Submission): Option<string> {
    match sub
    case NoSubmission => None
    case Valid(_) => Some(Updated)
    case Invalid => Some(UpdateFailed)
  }

  /** One visit of a found user's page: the update, if the form yields a
      profile, then the read. `notice` is the message of the outcome. */
  function Visit(s: Store, id: UserId, sub: Submission, notice: Option<string>, now: nat): (r: ProfileResponse)
    ensures r.outcome.Shown? && r.outcome.page.doc.userId == id && r.outcome.page.notice == notice
    ensures ProfileOf(r.store, id) == Some(r.outcome.page.doc.profile)
    ensures r.outcome.page.history == HistoryEntries(s.turns, id)
    ensures sub.Valid? && ProfileIndex(s, id).Some? ==> r.outcome.page.doc == ProfileDoc(id, sub.profile, now)
    ensures ProfileIndex(s, id).None? ==>
      r.outcome.page.doc == ProfileDoc(id, EmptyProfile, now) &&
      r.store == s.(profiles := s.profiles + [ProfileDoc(id, EmptyProfile, now)])
    ensures ProfileIndex(r.store, id).Some? && r.store.profiles[ProfileIndex(r.store, id).value] == r.outcome.page.doc
    ensures !sub.Valid? && ProfileIndex(s, id).Some? ==>
      r.store == s && r.outcome.page.doc == s.profiles[ProfileIndex(s, id).value]
    ensures r.store.users == s.users && r.store.turns == s.turns && r.store.nextId == s.nextId
    ensures |r.store.profiles| >= |s.profiles|
    ensures forall j :: 0 <= j < |s.profiles| && s.profiles[j].userId != id ==> r.store.profiles[j] == s.profiles[j]
  {
    match sub
    case Valid(p) =>
      var s' := SetProfile(s, id, p, now);
      assert ProfileIndex(s', id) == ProfileIndex(s, id) by {
        if ProfileIndex(s, id).Some? {
          var k := ProfileIndex(s, id).value;
          assert forall j :: 0 <= j < k ==> s'.profiles[j] == s.profiles[j];
        }
      }
      Render(s', id, now, notice)
    case _ => Render(s, id, now, notice)
  }

  /** The micro-framework variant's `profile` for the user in the session. */
  function FlaskProfile(s: Store, id: UserId, dbUp: bool, sub: Submission, now: nat): (r: ProfileResponse)
    ensures !dbUp ==> r == ProfileResponse(Redirected(NoDatabase), s)
    ensures dbUp ==> r.outcome.Shown? && r.outcome.page.doc.userId == id
    ensures dbUp ==> r.outcome.page.notice == NoticeFor(sub)
    ensures dbUp ==> ProfileOf(r.store, id) == Some(r.outcome.page.doc.profile)
    ensures dbUp ==> r.outcome.page.history == HistoryEntries(s.turns, id)
    ensures dbUp && sub.Valid? && ProfileIndex(s, id).Some? ==> r.outcome.page.doc == ProfileDoc(id, sub.profile, now)
    ensures dbUp && ProfileIndex(s, id).None? ==>
      r.outcome.page.doc == ProfileDoc(id, EmptyProfile, now) &&
      r.store == s.(profiles := s.profiles + [ProfileDoc(id, EmptyProfile, now)])
    ensures dbUp ==> ProfileIndex(r.store, id).Some? && r.store.profiles[ProfileIndex(r.store, id).value] == r.outcome.page.doc
    ensures dbUp && !sub.Valid? && ProfileIndex(s, id).Some? ==>
      r.store == s && r.outcome.page.doc == s.profiles[ProfileIndex(s, id).value]
    ensures r.store.users == s.users && r.store.turns == s.turns && r.store.nextId == s.nextId
    ensures |r.store.profiles| >= |s.profiles|
    ensures forall j :: 0 <= j < |s.profiles| && s.profiles[j].userId != id ==> r.store.profiles[j] == s.profiles[j]
  {
    if !dbUp then ProfileResponse(Redirected(NoDatabase), s)
    else Visit(s, id, sub, NoticeFor(sub), now)
  }

  /** The full-stack variant's `profile_view` for the signed-in username. A
      raising connection is not caught; a form that fails validation is
      dropped without a message. */
  function MedaiProfile(s: Store, username: string, conn: Connection, sub: Submission, now: nat): (r: ProfileResponse)
    ensures conn == Raises ==> r == ProfileResponse(ServerError, s)
    ensures conn == Down ==> r == ProfileResponse(Redirected(NoDatabase), s)
    ensures conn == Up && UserNamed(s, username).None? ==> r == ProfileResponse(Redirected(NoUser), s)
    ensures conn == Up && UserNamed(s, username).Some? ==> r.outcome.Shown?
    ensures r.outcome.Shown? ==>
      && r.outcome.page.doc.userId == UserNamed(s, username).value.id
      && ProfileOf(r.store, r.outcome.page.doc.userId) == Some(r.outcome.page.doc.profile)
      && r.outcome.page.notice == (if sub.Valid? then Some(Updated) else None)
      && r.outcome.page.history == HistoryEntries(s.turns, UserNamed(s, username).value.id)
    ensures conn == Up && UserNamed(s, username).Some? && sub.Valid? &&
            ProfileIndex(s, UserNamed(s, username).value.id).Some? ==>
      r.outcome.page.doc == ProfileDoc(UserNamed(s, username).value.id, sub.profile, now)
    ensures conn == Up && UserNamed(s, username).Some? && ProfileIndex(s, UserNamed(s, username).value.id).None? ==>
      var id := UserNamed(s, username).value.id;
      r.outcome.page.doc == ProfileDoc(id, EmptyProfile, now) &&
      r.store == s.(profiles := s.profiles + [ProfileDoc(id, EmptyProfile, now)])
    ensures conn == Up && UserNamed(s, username).Some? ==>
      var id := UserNamed(s, username).value.id;
      && ProfileIndex(r.store, id).Some? && r.store.profiles[ProfileIndex(r.store, id).value] == r.outcome.page.doc
      && (!sub.Valid? && ProfileIndex(s, id).Some? ==>
            r.store == s && r.outcome.page.doc == s.profiles[ProfileIndex(s, id).value])
      && |r.store.profiles| >= |s.profiles|
      && forall j :: 0 <= j < |s.profiles| && s.profiles[j].userId != id ==> r.store.profiles[j] == s.profiles[j]
    ensures r.store.users == s.users && r.store.turns == s.turns && r.store.nextId == s.nextId
  {
    if conn == Raises then ProfileResponse(ServerError, s)
    else if conn == Down then ProfileResponse(Redirected(NoDatabase), s)
    else
      var found := UserNamed(s, username);
      if found.None? then ProfileResponse(Redirected(NoUser), s)
      else
        var u := found.value;
        Visit(s, u.id, sub, if sub.Valid? then Some(Updated) else None, now)
  }

  /** A stored update is what the next visit shows. */
  lemma UpdateThenReadBack(s: Store, id: UserId, p: Profile, now: nat, later: nat)
    requires ProfileIndex(s, id).Some?
    ensures var r := FlaskProfile(s, id, true, Valid(p), now);
      && r.outcome.page.doc == ProfileDoc(id, p, now)
      && FlaskProfile(r.store, id, true, NoSubmission, later).outcome.page.doc == ProfileDoc(id, p, now)
  {
    var r := Visit(s, id, Valid(p), Some(Updated), now);
    assert FlaskProfile(s, id, true, Valid(p), now) == r;
    assert FlaskProfile(r.store, id, true, NoSubmission, later) == Visit(r.store, id, NoSubmission, None, later);
  }

  /** The same round trip on the full-stack page, for a signed-in user
      whose record and profile document exist. */
  lemma MedaiUpdateThenReadBack(s: Store, username: string, p: Profile, now: nat, later: nat)
    requires UserNamed(s, username).Some? && ProfileIndex(s, UserNamed(s, username).value.id).Some?
    ensures var r := MedaiProfile(s, username, Up, Valid(p), now);
      var id := UserNamed(s, username).value.id;
      && r.outcome.page.doc == ProfileDoc(id, p, now)
      && MedaiProfile(r.store, username, Up, NoSubmission, later).outcome.page.doc == ProfileDoc(id, p, now)
  {
    var id := UserNamed(s, username).value.id;
    var r := Visit(s, id, Valid(p), Some(Updated), now);
    assert MedaiProfile(s, username, Up, Valid(p), now) == r;
    assert UserNamed(r.store, username) == UserNamed(s, username);
    assert MedaiProfile(r.store, username, Up, NoSubmission, later) == Visit(r.store, id, NoSubmission, None, later);
  }

  /** Without a stored document the update is lost: the page shows, and the
      store then holds, the all-null profile, whatever was submitted. */
  lemma UpdateLostWithoutDocument(s: Store, id: UserId, p: Profile, now: nat)
    requires ProfileIndex(s, id).None?
    ensures var r := FlaskProfile(s, id, true, Valid(p), now);
      && r.outcome.page.doc.profile == EmptyProfile
      && r.outcome.page.notice == Some(Updated)
      && ProfileOf(r.store, id) == Some(EmptyProfile)
  {
  }

  /** The full-stack page loses an update the same way: a signed-in user
      with a record but no document gets the success message, while the
      all-null profile is shown and stored. */
  lemma MedaiUpdateLostWithoutDocument(s: Store, username: string, p: Profile, now: nat)
    requires UserNamed(s, username).Some? && ProfileIndex(s, UserNamed(s, username).value.id).None?
    ensures var r := MedaiProfile(s, username, Up, Valid(p), now);
      && r.outcome.page.doc.profile == EmptyProfile
      && r.outcome.page.notice == Some(Updated)
      && ProfileOf(r.store, UserNamed(s, username).value.id) == Some(EmptyProfile)
  {
  }

  /** A second visit without a form writes nothing and shows the same profile. */
  lemma VisitIsIdempotent(s: Store, id: UserId, now: nat, later: nat)
    ensures var r := FlaskProfile(s, id, true, NoSubmission, now);
      var r' := FlaskProfile(r.store, id, true, NoSubmission, later);
      && r'.store == r.store
      && r'.outcome.page.doc == r.outcome.page.doc
  {
    var r := FlaskProfile(s, id, true, NoSubmission, now);
    assert ProfileIndex(r.store, id).Some?;
  }

  /** Updating a profile in place keeps the store invariant. */
  lemma SetProfileKeepsWellFormed(s: Store, id: UserId, p: Profile, now: nat)
    requires WellFormed(s)
    ensures WellFormed(SetProfile(s, id, p, now))
  {
    var s' := SetProfile(s, id, p, now);
    assert forall j :: 0 <= j < |s'.profiles| ==> s'.profiles[j].userId == s.profiles[j].userId;
    assert ProfilesUnique(s'.profiles, s'.nextId);
  }

  /** Reading a page, with its possible default insert, keeps the store
      invariant for an issued id. */
  lemma RenderKeepsWellFormed(s: Store, id: UserId, now: nat, notice: Option<string>)
    requires WellFormed(s) && id < s.nextId
    ensures WellFormed(Render(s, id, now, notice).store)
  {
    if ProfileIndex(s, id).None? {
      AppendProfileKeepsUnique(s.profiles, s.nextId, ProfileDoc(id, EmptyProfile, now));
    }
  }

  lemma VisitKeepsWellFormed(s: Store, id: UserId, sub: Submission, notice: Option<string>, now: nat)
    requires WellFormed(s) && id < s.nextId
    ensures WellFormed(Visit(s, id, sub, notice, now).store)
  {
    if sub.Valid? {
      SetProfileKeepsWellFormed(s, id, sub.profile, now);
      RenderKeepsWellFormed(SetProfile(s, id, sub.profile, now), id, now, notice);
    } else {
      RenderKeepsWellFormed(s, id, now, notice);
    }
  }

  /** Both profile pages preserve the store invariant, for a session user
      whose id was issued. */
  lemma FlaskProfileKeepsWellFormed(s: Store, id: UserId, dbUp: bool, sub: Submission, now: nat)
    requires WellFormed(s) && id < s.nextId
    ensures WellFormed(FlaskProfile(s, id, dbUp, sub, now).store)
  {
    VisitKeepsWellFormed(s, id, sub, NoticeFor(sub), now);
  }

  lemma MedaiProfileKeepsWellFormed(s: Store, username: string, conn: Connection, sub: Submission, now: nat)
    requires WellFormed(s)
    ensures WellFormed(MedaiProfile(s, username, conn, sub, now).store)
  {
    if conn == Up && UserNamed(s, username).Some? {
      var u := UserNamed(s, username).value;
      assert u in s.users;
      VisitKeepsWellFormed(s, u.id, sub, if sub.Valid? then Some(Updated) else None, now);
      assert MedaiProfile(s, username, conn, sub, now) == Visit(s, u.id, sub, if sub.Valid? then Some(Updated) else None, now);
    }
  }
}

=== FILE: profiles.dfy ===
/** The medical profile and the "Label: value" detail lines both variants
    build from it before prompting the model. A stored field may be missing
    or null (`None`); a line is produced only for a field that is truthy in
    Python's sense. */
module Profiles {
  import opened Common
  import opened Strings

  /** The eight choices of the profile form's blood-group list. */
  datatype BloodGroup = APos | ANeg | BPos | BNeg | ABPos | ABNeg | OPos | ONeg {
    function Name(): (s: string)
      ensures |s| > 0
    {
      match this
      case APos => "A+"
      case ANeg => "A-"
      case BPos => "B+"
      case BNeg => "B-"
      case ABPos => "AB+"
      case ABNeg => "AB-"
      case OPos => "O+"
      case ONeg => "O-"
    }
  }

  /** A stored height or weight: its Python rendering (`str(175.0)` is
      "175.0") and whether it is non-zero, i.e. truthy. */
  datatype Measure = Measure(text: string, nonzero: bool)

  datatype Profile = Profile(
    age: Option<int>,
    bloodGroup: Option<BloodGroup>,
    height: Option<Measure>,
    weight: Option<Measure>,
    allergies: Option<string>,
    chronicConditions: Option<string>,
    currentMedications: Option<string>,
    previousSurgeries: Option<string>)

  /** The profile created at registration and on first visit: every field null. */
  const EmptyProfile := Profile(None, None, None, None, None, None, None, None)

  /** Python truthiness of an optional text field. */
  predicate TextTruthy(v: Option<string>) {
    v.Some? && v.value != ""
  }

  /** The detail lines, built as the handlers build them: one conditional
      append per field, in a fixed order. */
  function DetailLines(p: Profile): seq<string> {
    (if p.age.Some? && p.age.value != 0 then ["Age: " + IntToString(p.age.value)] else [])
    + (if p.bloodGroup.Some? then ["Blood Group: " + p.bloodGroup.value.Name()] else [])
    + (if p.height.Some? && p.height.value.nonzero then ["Height: " + p.height.value.text + " cm"] else [])
    + (if p.weight.Some? && p.weight.value.nonzero then ["Weight: " + p.weight.value.text + " kg"] else [])
    + (if TextTruthy(p.allergies) then ["Allergies: " + p.allergies.value] else [])
    + (if TextTruthy(p.chronicConditions) then ["Chronic Conditions: " + p.chronicConditions.value] else [])
    + (if TextTruthy(p.currentMedications) then ["Current Medications: " + p.currentMedications.value] else [])
    + (if TextTruthy(p.previousSurgeries) then ["Previous Surgeries: " + p.previousSurgeries.value] else [])
  }

  // ---------------------------------------------------------------------
  // Reference description: a table of fields, each with a rank, a label, a
  // truthiness test and a rendered value.
  // ---------------------------------------------------------------------

  datatype Field = Age | Blood | Height | Weight | Allergies | Chronic | Medications | Surgeries

  const FieldOrder: seq<Field> := [Age, Blood, Height, Weight, Allergies, Chronic, Medications, Surgeries]

  function Rank(f: Field): nat {
    match f
    case Age => 0
    case Blood => 1
    case Height => 2
    case Weight => 3
    case Allergies => 4
    case Chronic => 5
    case Medications => 6
    case Surgeries => 7
  }

  function Label(f: Field): string {
    match f
    case Age => "Age"
    case Blood => "Blood Group"
    case Height => "Height"
    case Weight => "Weight"
    case Allergies => "Allergies"
    case Chronic => "Chronic Conditions"
    case Medications => "Current Medications"
    case Surgeries => "Previous Surgeries"
  }

  /** The field holds a truthy value: not null, and not 0, 0.0 or "". */
  predicate Present(p: Profile, f: Field) {
    match f
    case Age => p.age.Some? && p.age.value != 0
    case Blood => p.bloodGroup.Some?
    case Height => p.height.Some? && p.height.value.nonzero
    case Weight => p.weight.Some? && p.weight.value.nonzero
    case Allergies => TextTruthy(p.allergies)
    case Chronic => TextTruthy(p.chronicConditions)
    case Medications => TextTruthy(p.currentMedications)
    case Surgeries => TextTruthy(p.previousSurgeries)
  }

  /** The rendered value of a present field, with its unit if it has one. */
  function Value(p: Profile, f: Field): string
    requires Present(p, f)
  {
    match f
    case Age => IntToString(p.age.value)
    case Blood => p.bloodGroup.value.Name()
    case Height => p.height.value.text + " cm"
    case Weight => p.weight.value.text + " kg"
    case Allergies => p.allergies.value
    case Chronic => p.chronicConditions.value
    case Medications => p.currentMedications.value
    case Surgeries => p.previousSurgeries.value
  }

  function Line(p: Profile, f: Field): string
    requires Present(p, f)
  {
    Label(f) + ": " + Value(p, f)
  }

  predicate StrictlyRanked(fs: seq<Field>) {
    forall i, j :: 0 <= i < j < |fs| ==> Rank(fs[i]) < Rank(fs[j])
  }

  /** In a strictly ranked sequence the head outranks nothing after it. */
  lemma HeadRankedFirst(fs: seq<Field>)
    requires |fs| > 0 && StrictlyRanked(fs)
    ensures forall g :: g in fs[1..] ==> Rank(fs[0]) < Rank(g)
  {
    forall g | g in fs[1..]
      ensures Rank(fs[0]) < Rank(g)
    {
      var k :| 0 <= k < |fs[1..]| && fs[1..][k] == g;
      assert fs[k + 1] == g;
    }
  }

  /** The fields of `fs` that are present in `p`, in the order of `fs`. */
  function KeepPresent(p: Profile, fs: seq<Field>): (r: seq<Field>)
    ensures forall f :: f in r <==> f in fs && Present(p, f)
    ensures StrictlyRanked(fs) ==> StrictlyRanked(r)
  {
    if |fs| == 0 then []
    else
      var rest := KeepPresent(p, fs[1..]);
      if Present(p, fs[0]) then
        if StrictlyRanked(fs) then
          HeadRankedFirst(fs);
          assert forall j :: 0 < j < |[fs[0]] + rest| ==> ([fs[0]] + rest)[j] in rest;
          [fs[0]] + rest
        else
          [fs[0]] + rest
      else rest
  }

  lemma AllFieldsListed()
    ensures forall f: Field :: f in FieldOrder
  {
    forall f: Field
      ensures f in FieldOrder
    {
      assert FieldOrder[Rank(f)] == f;
    }
  }

  /** The fields that get a line, in the fixed order. */
  function PresentFields(p: Profile): (r: seq<Field>)
    ensures forall f :: f in r <==> Present(p, f)
    ensures StrictlyRanked(r)
  {
    AllFieldsListed();
    KeepPresent(p, FieldOrder)
  }

  /** The lines of a sequence of present fields. */
  function LinesOf(p: Profile, fs: seq<Field>): (lines: seq<string>)
    requires forall f :: f in fs ==> Present(p, f)
    ensures |lines| == |fs|
    ensures forall i :: 0 <= i < |fs| ==> lines[i] == Line(p, fs[i])
  {
    if |fs| == 0 then [] else [Line(p, fs[0])] + LinesOf(p, fs[1..])
  }

  /** The line of one field, if it has one. */
  function OptionalLine(p: Profile, f: Field): seq<string> {
    if Present(p, f) then [Line(p, f)] else []
  }

  /** The optional lines of `fs`, concatenated in order. */
  function Gather(p: Profile, fs: seq<Field>): seq<string> {
    if |fs| == 0 then [] else OptionalLine(p, fs[0]) + Gather(p, fs[1..])
  }

  lemma {:induction false} GatherIsLinesOfPresent(p: Profile, fs: seq<Field>)
    ensures Gather(p, fs) == LinesOf(p, KeepPresent(p, fs))
  {
    if |fs| > 0 {
      GatherIsLinesOfPresent(p, fs[1..]);
      var rest := KeepPresent(p, fs[1..]);
      if Present(p, fs[0]) {
        assert ([fs[0]] + rest)[1..] == rest;
      }
    }
  }

  /** One step of gathering a suffix. */
  lemma GatherStep(p: Profile, fs: seq<Field>, k: nat)
    requires k < |fs|
    ensures Gather(p, fs[k..]) == OptionalLine(p, fs[k]) + Gather(p, fs[k + 1..])
  {
    assert fs[k..][1..] == fs[k + 1..];
  }

  /** Gathering eight fields is appending their optional lines, grouped to the right. */
  lemma GatherEight(p: Profile, fs: seq<Field>)
    requires |fs| == 8
    ensures Gather(p, fs) ==
      OptionalLine(p, fs[0]) + (OptionalLine(p, fs[1]) + (OptionalLine(p, fs[2]) + (OptionalLine(p, fs[3])
      + (OptionalLine(p, fs[4]) + (OptionalLine(p, fs[5]) + (OptionalLine(p, fs[6]) + OptionalLine(p, fs[7])))))))
  {
    var o0, o1, o2, o3 := OptionalLine(p, fs[0]), OptionalLine(p, fs[1]), OptionalLine(p, fs[2]), OptionalLine(p, fs[3]);
    var o4, o5, o6, o7 := OptionalLine(p, fs[4]), OptionalLine(p, fs[5]), OptionalLine(p, fs[6]), OptionalLine(p, fs[7]);
    assert Gather(p, fs[7..]) == o7 by {
      GatherStep(p, fs, 7);
      assert fs[8..] == [];
      assert o7 + [] == o7;
    }
    assert Gather(p, fs[6..]) == o6 + o7 by { GatherStep(p, fs, 6); }
    assert Gather(p, fs[5..]) == o5 + (o6 + o7) by { GatherStep(p, fs, 5); }
    assert Gather(p, fs[4..]) == o4 + (o5 + (o6 + o7)) by { GatherStep(p, fs, 4); }
    assert Gather(p, fs[3..]) == o3 + (o4 + (o5 + (o6 + o7))) by { GatherStep(p, fs, 3); }
    assert Gather(p, fs[2..]) == o2 + (o3 + (o4 + (o5 + (o6 + o7)))) by { GatherStep(p, fs, 2); }
    assert Gather(p, fs[1..]) == o1 + (o2 + (o3 + (o4 + (o5 + (o6 + o7))))) by { GatherStep(p, fs, 1); }
    GatherStep(p, fs, 0);
    assert fs[0..] == fs;
  }

  lemma GatherFieldOrder(p: Profile)
    ensures Gather(p, FieldOrder) ==
      OptionalLine(p, Age) + (OptionalLine(p, Blood) + (OptionalLine(p, Height) + (OptionalLine(p, Weight)
      + (OptionalLine(p, Allergies) + (OptionalLine(p, Chronic) + (OptionalLine(p, Medications)
      + OptionalLine(p, Surgeries)))))))
  {
    GatherEight(p, FieldOrder);
  }

  /** Each conditional append of the handlers is the optional line of its field. */
  lemma AppendsAreOptionalLines(p: Profile)
    ensures OptionalLine(p, Age) == (if p.age.Some? && p.age.value != 0 then ["Age: " + IntToString(p.age.value)] else [])
    ensures OptionalLine(p, Blood) == (if p.bloodGroup.Some? then ["Blood Group: " + p.bloodGroup.value.Name()] else [])
    ensures OptionalLine(p, Height) == (if p.height.Some? && p.height.value.nonzero then ["Height: " + p.height.value.text + " cm"] else [])
    ensures OptionalLine(p, Weight) == (if p.weight.Some? && p.weight.value.nonzero then ["Weight: " + p.weight.value.text + " kg"] else [])
    ensures OptionalLine(p, Allergies) == (if TextTruthy(p.allergies) then ["Allergies: " + p.allergies.value] else [])
    ensures OptionalLine(p, Chronic) == (if TextTruthy(p.chronicConditions) then ["Chronic Conditions: " + p.chronicConditions.value] else [])
    ensures OptionalLine(p, Medications) == (if TextTruthy(p.currentMedications) then ["Current Medications: " + p.currentMedications.value] else [])
    ensures OptionalLine(p, Surgeries) == (if TextTruthy(p.previousSurgeries) then ["Previous Surgeries: " + p.previousSurgeries.value] else [])
  {
    assert Label(Age) + ": " == "Age: ";
    assert Label(Blood) + ": " == "Blood Group: ";
    assert Label(Surgeries) + ": " == "Previous Surgeries: ";
    if Present(p, Height) {
      var t := p.height.value.text;
      assert Label(Height) + ": " == "Height: ";
      assert Line(p, Height) == "Height: " + (t + " cm") == "Height: " + t + " cm";
    }
    if Present(p, Weight) {
      var t := p.weight.value.text;
      assert Label(Weight) + ": " == "Weight: ";
      assert Line(p, Weight) == "Weight: " + (t + " kg") == "Weight: " + t + " kg";
    }
    assert Label(Allergies) + ": " == "Allergies: ";
    assert Label(Chronic) + ": " == "Chronic Conditions: ";
    assert Label(Medications) + ": " == "Current Medications: ";
  }

  lemma Associate(a: seq<string>, b: seq<string>, c: seq<string>)
    ensures (a + b) + c == a + (b + c)
  {
  }

  /** The handlers' appends are the eight optional lines, in order. */
  lemma DetailLinesFlat(p: Profile)
    ensures DetailLines(p) ==
      OptionalLine(p, Age) + OptionalLine(p, Blood) + OptionalLine(p, Height) + OptionalLine(p, Weight)
      + OptionalLine(p, Allergies) + OptionalLine(p, Chronic) + OptionalLine(p, Medications)
      + OptionalLine(p, Surgeries)
  {
    AppendsAreOptionalLines(p);
  }

  /** Eight appends, regrouped to the right. */
  lemma Reassociate(o0: seq<string>, o1: seq<string>, o2: seq<string>, o3: seq<string>,
                    o4: seq<string>, o5: seq<string>, o6: seq<string>, o7: seq<string>)
    ensures o0 + o1 + o2 + o3 + o4 + o5 + o6 + o7 == o0 + (o1 + (o2 + (o3 + (o4 + (o5 + (o6 + o7))))))
  {
    Associate(o0 + o1 + o2 + o3 + o4 + o5, o6, o7);
    Associate(o0 + o1 + o2 + o3 + o4, o5, o6 + o7);
    Associate(o0 + o1 + o2 + o3, o4, o5 + (o6 + o7));
    Associate(o0 + o1 + o2, o3, o4 + (o5 + (o6 + o7)));
    Associate(o0 + o1, o2, o3 + (o4 + (o5 + (o6 + o7))));
    Associate(o0, o1, o2 + (o3 + (o4 + (o5 + (o6 + o7)))));
  }

  /** The handlers' detail lines are exactly the reference lines: one per
      present field, in rank order, and nothing else. */
  lemma DetailLinesMatchTable(p: Profile)
    ensures DetailLines(p) == LinesOf(p, PresentFields(p))
  {
    DetailLinesFlat(p);
    Reassociate(OptionalLine(p, Age), OptionalLine(p, Blood), OptionalLine(p, Height), OptionalLine(p, Weight),
                OptionalLine(p, Allergies), OptionalLine(p, Chronic), OptionalLine(p, Medications), OptionalLine(p, Surgeries));
    GatherFieldOrder(p);
    GatherIsLinesOfPresent(p, FieldOrder);
  }

  /** The first two letters of a label, which tell the eight labels apart. */
  function Key(f: Field): (char, char) {
    (Label(f)[0], Label(f)[1])
  }

  lemma KeysDistinct(f: Field, g: Field)
    requires f != g
    ensures Key(f) != Key(g)
  {
    assert Key(Age) == ('A', 'g');
    assert Key(Blood) == ('B', 'l');
    assert Key(Height) == ('H', 'e');
    assert Key(Weight) == ('W', 'e');
    assert Key(Allergies) == ('A', 'l');
    assert Key(Chronic) == ('C', 'h');
    assert Key(Medications) == ('C', 'u');
    assert Key(Surgeries) == ('P', 'r');
  }

  /** No line of one field starts with the label of another. */
  lemma NoForeignLabel(p: Profile, f: Field, g: Field)
    requires Present(p, g) && f != g
    ensures !(Label(f) + ": " <= Line(p, g))
  {
    if Label(f) + ": " <= Line(p, g) {
      var pre := Label(f) + ": ";
      assert Line(p, g)[0] == pre[0] == Label(f)[0];
      assert Line(p, g)[1] == pre[1] == Label(f)[1];
      assert Line(p, g)[0] == Label(g)[0] && Line(p, g)[1] == Label(g)[1];
      KeysDistinct(f, g);
    }
  }

  lemma OwnLabel(p: Profile, f: Field)
    requires Present(p, f)
    ensures Label(f) + ": " <= Line(p, f)
  {
    assert Line(p, f) == (Label(f) + ": ") + Value(p, f);
  }

  /** Line `i` of `lines` carries the label of field `f`. */
  predicate Labelled(lines: seq<string>, i: int, f: Field) {
    0 <= i < |lines| && Label(f) + ": " <= lines[i]
  }

  lemma LabelFoundWhenListed(p: Profile, fs: seq<Field>, k: nat)
    requires forall g :: g in fs ==> Present(p, g)
    requires k < |fs|
    ensures Labelled(LinesOf(p, fs), k, fs[k])
  {
    assert fs[k] in fs;
    OwnLabel(p, fs[k]);
  }

  lemma LabelMissingWhenUnlisted(p: Profile, fs: seq<Field>, f: Field, i: int)
    requires forall g :: g in fs ==> Present(p, g)
    requires f !in fs
    ensures !Labelled(LinesOf(p, fs), i, f)
  {
    if 0 <= i < |fs| {
      assert fs[i] in fs;
      NoForeignLabel(p, f, fs[i]);
    }
  }

  /** A line labelled `f` among the lines of present fields `fs` exists
      exactly when `f` is one of them. */
  lemma LabelInLinesOf(p: Profile, fs: seq<Field>, f: Field)
    requires forall g :: g in fs ==> Present(p, g)
    ensures (exists i :: Labelled(LinesOf(p, fs), i, f)) <==> f in fs
  {
    if f in fs {
      var k :| 0 <= k < |fs| && fs[k] == f;
      LabelFoundWhenListed(p, fs, k);
      assert Labelled(LinesOf(p, fs), k, f);
    } else {
      forall i | Labelled(LinesOf(p, fs), i, f)
        ensures false
      {
        LabelMissingWhenUnlisted(p, fs, f, i);
      }
    }
  }

  /** A line labelled with field `f` appears among the detail lines exactly
      when `f` is truthy, and it is then that field's line. */
  lemma LabelShownIffPresent(p: Profile, f: Field)
    ensures (exists i :: Labelled(DetailLines(p), i, f)) <==> Present(p, f)
    ensures Present(p, f) ==> Line(p, f) in DetailLines(p)
  {
    DetailLinesMatchTable(p);
    var fs := PresentFields(p);
    LabelInLinesOf(p, fs, f);
    if Present(p, f) {
      var k :| 0 <= k < |fs| && fs[k] == f;
      assert LinesOf(p, fs)[k] == Line(p, f);
    }
  }

  /** The detail lines come in the fixed field order: a line for a field of
      lower rank always precedes a line for a field of higher rank, and
      there is one line per truthy field. */
  lemma DetailLinesInFieldOrder(p: Profile)
    ensures |DetailLines(p)| == |PresentFields(p)|
    ensures forall i, j :: 0 <= i < j < |DetailLines(p)| ==>
      DetailLines(p)[i] == Line(p, PresentFields(p)[i]) && Rank(PresentFields(p)[i]) < Rank(PresentFields(p)[j])
  {
    DetailLinesMatchTable(p);
  }

  /** An empty profile, or one whose every field is null, 0 or "", yields no line. */
  lemma NoLinesIffNothingPresent(p: Profile)
    ensures |DetailLines(p)| == 0 <==> forall f :: !Present(p, f)
  {
    DetailLinesMatchTable(p);
    if |DetailLines(p)| != 0 {
      assert PresentFields(p)[0] in PresentFields(p);
    }
  }

  /** With only age 34 and blood group O+ set there are exactly two lines,
      in that order. */
  lemma AgeAndBloodGroupOnly()
    ensures DetailLines(EmptyProfile.(age := Some(34), bloodGroup := Some(OPos))) == ["Age: 34", "Blood Group: O+"]
  {
    var p := EmptyProfile.(age := Some(34), bloodGroup := Some(OPos));
    assert NatToString(3) == "3";
    assert NatToString(34) == "34";
    assert IntToString(34) == "34";
    assert "Age: " + "34" == "Age: 34";
    assert "Blood Group: " + "O+" == "Blood Group: O+";
    assert DetailLines(p) == ["Age: 34"] + ["Blood Group: O+"] + [] + [] + [] + [] + [] + [];
  }
}

=== FILE: prompt.dfy ===
/** The prompt composer of both variants and the fixed texts the handlers
    answer with. */
module Prompt {
  import opened Common
  import opened Strings
  import opened Profiles

  /** The canned answer to a non-medical question. */
  const Refusal := "I'm sorry, but I can only answer medical and healthcare-related questions. Please ask me something about medicine, health conditions, treatments, or other healthcare topics."

  /** The canned answer when something raised while answering. */
  const Apology := "Sorry, there was an error processing your request. Please try again."

  /** The lines of the persona and formatting instructions that open the
      full-stack variant's prompt, kept character for character (a leading
      empty line, eight-space indentation, trailing blanks included). */
  const PreambleLines: seq<string> := [
      "",
      "        You are MedAI, a medical assistant specialized in healthcare information. ",
      "        You can ONLY answer questions related to medicine, healthcare, medical conditions, ",
      "        treatments, and other health-related topics.",
      "        ",
      "        FORMAT YOUR RESPONSE USING MARKDOWN:",
      "        - Use **bold** for important terms, drug names, and key points",
      "        - Use *italics* for emphasis",
      "        - Use bullet points or numbered lists for steps or multiple items",
      "        - Use headings with # or ## for sections if needed",
      "        - Use tables for comparing options when relevant",
      "        ",
      "        Your response should be well-structured, clear, and formatted for easy reading.",
      "        Always include appropriate disclaimers about consulting healthcare professionals.",
      "        "
    ]

  const MedaiPreamble := Join(PreambleLines, "\n")

  /** The instruction closing the full-stack variant's prompt: answer with
      the refusal if the question is not medical after all. */
  const Guard := "\n\nIMPORTANT: If this question is not related to medicine or healthcare, respond only with: '" + Refusal + "'"

  const PatientIntro := "Consider the following patient information when responding:\n"
  const PatientOutro := "\n\nNow answer the following question with this context in mind:\n"

  /** The patient-information block around the detail lines; nothing at all
      when there are no lines. Otherwise the intro, the lines one per line,
      and the outro. */
  function PatientBlock(lines: seq<string>): (block: string)
    ensures |lines| == 0 <==> block == ""
    ensures |lines| > 0 ==> PatientIntro <= block
    ensures |lines| > 0 ==> EndsWith(block, PatientOutro)
    ensures |lines| > 0 ==> Framed(block, PatientIntro, Join(lines, "\n"), PatientOutro)
    ensures forall k :: 0 <= k < |lines| ==> Contains(block, lines[k])
  {
    if |lines| == 0 then ""
    else
      assert forall k :: 0 <= k < |lines| ==> Contains(PatientIntro + Join(lines, "\n") + PatientOutro, lines[k]) by {
        forall k | 0 <= k < |lines|
          ensures Contains(PatientIntro + Join(lines, "\n") + PatientOutro, lines[k])
        {
          JoinKeepsParts(lines, "\n", k);
          ContainsInContext(PatientIntro, Join(lines, "\n"), PatientOutro, lines[k]);
        }
      }
      FramedConcat(PatientIntro, Join(lines, "\n"), PatientOutro);
      PatientIntro + Join(lines, "\n") + PatientOutro
  }

  /** A truthy field's line is in the patient block of its profile. */
  lemma PresentLineInBlock(p: Profile, f: Field)
    requires Present(p, f)
    ensures Contains(PatientBlock(DetailLines(p)), Line(p, f))
  {
    LabelShownIffPresent(p, f);
    var lines := DetailLines(p);
    var k :| 0 <= k < |lines| && lines[k] == Line(p, f);
  }

  /** What the full-stack variant puts between the preamble and the
      message: the block, introduced by a blank line, when the profile
      yields at least one detail line. */
  function MedaiContext(profile: Option<Profile>): (context: string)
    ensures context == "" <==> profile.None? || forall f :: !Present(profile.value, f)
    ensures profile.Some? ==> forall f :: Present(profile.value, f) ==> Contains(context, Line(profile.value, f))
    ensures context != "" ==> profile.Some? && context == "\n\n" + PatientBlock(DetailLines(profile.value))
  {
    match profile
    case None => ""
    case Some(p) =>
      NoLinesIffNothingPresent(p);
      var lines := DetailLines(p);
      if |lines| == 0 then ""
      else
        assert forall f :: Present(p, f) ==> Contains("\n\n" + PatientBlock(lines), Line(p, f)) by {
          forall f | Present(p, f)
            ensures Contains("\n\n" + PatientBlock(lines), Line(p, f))
          {
            PresentLineInBlock(p, f);
            ContainsInContext("\n\n", PatientBlock(lines), "", Line(p, f));
            assert "\n\n" + PatientBlock(lines) + "" == "\n\n" + PatientBlock(lines);
          }
        }
        "\n\n" + PatientBlock(lines)
  }

  /** The full-stack variant's generation prompt: the preamble, the patient
      context, the message, and the closing guard. */
  function MedaiPrompt(message: string, profile: Option<Profile>): (prompt: string)
    ensures MedaiPreamble <= prompt
    ensures EndsWith(prompt, message + Guard)
    ensures Framed(prompt, MedaiPreamble, MedaiContext(profile), message + Guard)
  {
    var context := MedaiContext(profile);
    FourPartSlices(MedaiPreamble, context, message, Guard);
    FramedConcat(MedaiPreamble, context, message + Guard);
    ConcatAssoc(MedaiPreamble + context, message, Guard);
    MedaiPreamble + context + message + Guard
  }

  /** Without a profile, or with one whose fields are all null, 0 or "",
      the prompt is the preamble, the message and the guard, and only then. */
  lemma MedaiPromptWithoutProfile(message: string, profile: Option<Profile>)
    ensures MedaiPrompt(message, profile) == MedaiPreamble + message + Guard
      <==> profile.None? || forall f :: !Present(profile.value, f)
  {
    FourPartSlices(MedaiPreamble, MedaiContext(profile), message, Guard);
  }

  /** Every truthy field's line is in the full-stack prompt, in the part
      between the preamble and the message. */
  lemma MedaiPromptShowsProfile(message: string, p: Profile, f: Field)
    requires Present(p, f)
    ensures exists context ::
              && Contains(context, Line(p, f))
              && MedaiPrompt(message, Some(p)) == MedaiPreamble + context + message + Guard
  {
    var context := MedaiContext(Some(p));
    assert Contains(context, Line(p, f));
  }

  /** Where the four parts of a concatenation sit in it; the second part is
      empty exactly when the whole equals the other three. */
  lemma FourPartSlices(a: string, b: string, c: string, d: string)
    ensures var w := a + b + c + d;
      && a <= w
      && w[|a|..|w| - |d| - |c|] == b
      && w[|w| - |d| - |c|..|w| - |d|] == c
      && w[|w| - |d|..] == d
      && EndsWith(w, c + d)
      && (w == a + c + d <==> b == "")
  {
    var w := a + b + c + d;
    assert w[|a|..|w| - |d| - |c|] == b;
    assert w[|w| - |c + d|..] == c + d;
    if w == a + c + d {
      assert |w| == |a + c + d|;
    }
  }

  /** The micro-framework variant's prefix: the patient block, only for a
      query classified medical and a stored profile with a truthy field. */
  function FlaskPrefix(isMedical: bool, profile: Option<Profile>): (prefix: string)
    ensures prefix != "" <==> isMedical && profile.Some? && exists f :: Present(profile.value, f)
    ensures prefix != "" ==> PatientIntro <= prefix
    ensures prefix != "" ==> profile.Some? && prefix == PatientBlock(DetailLines(profile.value))
    ensures isMedical && profile.Some? ==> forall f :: Present(profile.value, f) ==> Contains(prefix, Line(profile.value, f))
  {
    if isMedical && profile.Some? then
      NoLinesIffNothingPresent(profile.value);
      assert forall f :: Present(profile.value, f) ==> Contains(PatientBlock(DetailLines(profile.value)), Line(profile.value, f)) by {
        forall f | Present(profile.value, f)
          ensures Contains(PatientBlock(DetailLines(profile.value)), Line(profile.value, f))
        {
          PresentLineInBlock(profile.value, f);
        }
      }
      PatientBlock(DetailLines(profile.value))
    else ""
  }

  /** The micro-framework variant's generation prompt: prefix then message,
      with no preamble and no guard. */
  function FlaskPrompt(isMedical: bool, profile: Option<Profile>, message: string): (prompt: string)
    ensures |prompt| >= |message| && prompt[|prompt| - |message|..] == message
    ensures prompt == message <==> FlaskPrefix(isMedical, profile) == ""
    ensures prompt[..|prompt| - |message|] == FlaskPrefix(isMedical, profile)
  {
    var prompt := FlaskPrefix(isMedical, profile) + message;
    assert prompt[|prompt| - |message|..] == message;
    assert prompt[..|prompt| - |message|] == FlaskPrefix(isMedical, profile);
    prompt
  }

  /** Both variants use the same patient block; the full-stack variant only
      sets it off from its preamble by a blank line. */
  lemma SamePatientBlock(p: Profile)
    ensures MedaiContext(Some(p)) == (if FlaskPrefix(true, Some(p)) == "" then "" else "\n\n" + FlaskPrefix(true, Some(p)))
  {
    NoLinesIffNothingPresent(p);
  }
}

=== FILE: store.dfy ===
/** The document store as the handlers see it: the users, medical profiles
    and conversation collections as sequences in insertion order, plus the
    usernames of the full-stack variant's own authentication table.
    Identifiers are drawn from a counter and timestamps are clock readings. */
module Store {
  import opened Common
  import opened Profiles

  type UserId = nat

  datatype User = User(
    id: UserId,
    username: string,
    email: Option<string>,        // null when registered without one
    passwordHash: string,
    createdAt: nat)

  datatype ProfileDoc = ProfileDoc(userId: UserId, profile: Profile, lastUpdated: nat)

  /** The `query_type` tag of a logged turn; only the full-stack variant writes one. */
  datatype QueryType = Medical | NonMedical

  datatype Turn = Turn(
    userId: UserId,
    userMessage: string,
    aiResponse: string,
    timestamp: nat,
    queryType: Option<QueryType>)

  datatype Store = Store(
    authUsers: seq<string>,
    users: seq<User>,
    profiles: seq<ProfileDoc>,
    turns: seq<Turn>,
    nextId: UserId)

  /** `users.find_one({"username": name})`. */
  function UserNamed(s: Store, name: string): (r: Option<User>)
    ensures r.Some? ==> r.value in s.users && r.value.username == name
    ensures r.None? <==> forall u :: u in s.users ==> u.username != name
    ensures r.Some? ==> exists k ::
      && 0 <= k < |s.users| && s.users[k] == r.value
      && forall j :: 0 <= j < k ==> s.users[j].username != name
  {
    match FindFirst(s.users, (u: User) => u.username == name)
    case None => None
    case Some(k) =>
      assert forall j :: 0 <= j < k ==> s.users[j].username != name;
      Some(s.users[k])
  }

  /** Position of `medical_profiles.find_one({"user_id": id})`. */
  function ProfileIndex(s: Store, id: UserId): (r: Option<nat>)
    ensures r.Some? ==> r.value < |s.profiles| && s.profiles[r.value].userId == id
    ensures r.Some? ==> forall j :: 0 <= j < r.value ==> s.profiles[j].userId != id
    ensures r.None? <==> forall j :: 0 <= j < |s.profiles| ==> s.profiles[j].userId != id
  {
    FindFirst(s.profiles, (d: ProfileDoc) => d.userId == id)
  }

  /** The stored profile of a user, if a document for it exists. */
  function ProfileOf(s: Store, id: UserId): (r: Option<Profile>)
    ensures r.Some? <==> exists d :: d in s.profiles && d.userId == id
    ensures r.Some? ==> exists k ::
      && 0 <= k < |s.profiles| && s.profiles[k].userId == id && r.value == s.profiles[k].profile
      && forall j :: 0 <= j < k ==> s.profiles[j].userId != id
  {
    match ProfileIndex(s, id)
    case None => None
    case Some(k) => Some(s.profiles[k].profile)
  }

  /** `conversations.insert_one(turn)`: the one write a chat request makes. */
  function LogTurn(s: Store, t: Turn): (s': Store)
    ensures s'.turns == s.turns + [t]
    ensures s'.users == s.users && s'.profiles == s.profiles
    ensures s'.authUsers == s.authUsers && s'.nextId == s.nextId
  {
    s.(turns := s.turns + [t])
  }

  /** User ids are issued by the counter and never shared. */
  predicate UsersIssued(users: seq<User>, nextId: UserId) {
    && (forall i :: 0 <= i < |users| ==> users[i].id < nextId)
    && (forall i, j :: 0 <= i < j < |users| ==> users[i].id != users[j].id)
  }

  /** Profile documents belong to issued ids, at most one per id. */
  predicate ProfilesUnique(profiles: seq<ProfileDoc>, nextId: UserId) {
    && (forall i :: 0 <= i < |profiles| ==> profiles[i].userId < nextId)
    && (forall i, j :: 0 <= i < j < |profiles| ==> profiles[i].userId != profiles[j].userId)
  }

  /** Identifiers are fresh and each user has at most one profile document:
      what registration and the profile page keep true. */
  predicate WellFormed(s: Store) {
    UsersIssued(s.users, s.nextId) && ProfilesUnique(s.profiles, s.nextId)
  }

  /** Adding a document for an issued id that has none keeps profiles unique. */
  lemma {:induction false} AppendProfileKeepsUnique(profiles: seq<ProfileDoc>, nextId: UserId, d: ProfileDoc)
    requires ProfilesUnique(profiles, nextId) && d.userId < nextId
    requires forall j :: 0 <= j < |profiles| ==> profiles[j].userId != d.userId
    ensures ProfilesUnique(profiles + [d], nextId)
  {
    var ps := profiles + [d];
    assert forall j :: 0 <= j < |profiles| ==> ps[j] == profiles[j];
  }
}

=== FILE: strings.dfy ===
/** The text primitives the handlers are built from: Python's whitespace
    test and `str.strip()`, upper-casing (ASCII letters only), the `in`
    substring test, `str.join` and the decimal rendering of an `int`. */
module Strings {

  /** Python's `str.isspace()` for one code point. */
  predicate IsSpace(c: char) {
    || ('\t' <= c <= '\r')
    || ('\U{1C}' <= c <= ' ')
    || c == '\U{85}' || c == '\U{A0}' || c == '\U{1680}'
    || ('\U{2000}' <= c <= '\U{200A}')
    || c == '\U{2028}' || c == '\U{2029}' || c == '\U{202F}'
    || c == '\U{205F}' || c == '\U{3000}'
  }

  predicate AllSpace(s: string) {
    forall i :: 0 <= i < |s| ==> IsSpace(s[i])
  }

  function LeadingSpaces(s: string): (n: nat)
    ensures n <= |s|
    ensures forall i :: 0 <= i < n ==> IsSpace(s[i])
    ensures n < |s| ==> !IsSpace(s[n])
  {
    if |s| > 0 && IsSpace(s[0]) then 1 + LeadingSpaces(s[1..]) else 0
  }

  function TrailingSpaces(s: string): (n: nat)
    ensures n <= |s|
    ensures forall i :: |s| - n <= i < |s| ==> IsSpace(s[i])
    ensures n < |s| ==> !IsSpace(s[|s| - n - 1])
  {
    if |s| > 0 && IsSpace(s[|s| - 1]) then 1 + TrailingSpaces(s[..|s| - 1]) else 0
  }

  /** The window `[lo, hi)` of `s` that `str.strip()` keeps: everything
      outside it is whitespace and, when it is non-empty, its first and last
      characters are not. */
  function StripBounds(s: string): (b: (nat, nat))
    ensures b.0 <= b.1 <= |s|
    ensures forall i :: 0 <= i < b.0 ==> IsSpace(s[i])
    ensures forall i :: b.1 <= i < |s| ==> IsSpace(s[i])
    ensures b.0 < b.1 ==> !IsSpace(s[b.0]) && !IsSpace(s[b.1 - 1])
    ensures b.0 == b.1 ==> AllSpace(s)
  {
    var lo := LeadingSpaces(s);
    if lo == |s| then (lo, lo) else (lo, |s| - TrailingSpaces(s))
  }

  /** Python's `s.strip()`. */
  function Strip(s: string): (r: string)
    ensures |r| == 0 <==> AllSpace(s)
    ensures |r| > 0 ==> !IsSpace(r[0]) && !IsSpace(r[|r| - 1])
    ensures r == s[StripBounds(s).0..StripBounds(s).1]
  {
    var b := StripBounds(s);
    s[b.0..b.1]
  }

  /** `str.strip()` is determined by what it promises: a text with no
      whitespace at either end that sits in `s` with only whitespace around
      it is the stripped `s`. */
  lemma StripUnique(s: string, w: string, i: int)
    requires w != "" && !IsSpace(w[0]) && !IsSpace(w[|w| - 1])
    requires OccursAt(w, s, i) && AllSpace(s[..i]) && AllSpace(s[i + |w|..])
    ensures w == Strip(s)
  {
    var b := StripBounds(s);
    var e := i + |w|;
    assert s[i] == w[0] && s[e - 1] == w[|w| - 1];
    if b.0 == b.1 || i != b.0 || e != b.1 {
      assert false;
    }
  }

  /** ASCII upper-casing of one character; every other character is kept. */
  function UpperChar(c: char): char {
    if 'a' <= c <= 'z' then (c as int - 32) as char else c
  }

  /** `s.upper()` restricted to ASCII letters. */
  function Upper(s: string): (r: string)
    ensures |r| == |s|
    ensures forall i :: 0 <= i < |s| ==> r[i] == UpperChar(s[i])
  {
    seq(|s|, i requires 0 <= i < |s| => UpperChar(s[i]))
  }

  /** `pat` occurs in `s` starting at index `i`. */
  ghost predicate OccursAt(pat: string, s: string, i: int) {
    0 <= i && i + |pat| <= |s| && s[i..i + |pat|] == pat
  }

  /** Python's `pat in s`. */
  function Contains(s: string, pat: string): (b: bool)
    ensures b <==> exists i :: OccursAt(pat, s, i)
    decreases |s|
  {
    if |s| < |pat| then
      false
    else if s[..|pat|] == pat then
      assert OccursAt(pat, s, 0);
      true
    else
      ShiftOccurrences(s, pat);
      Contains(s[1..], pat)
  }

  /** Dropping a first character that does not start an occurrence keeps
      exactly the occurrences, shifted by one. */
  lemma ShiftOccurrences(s: string, pat: string)
    requires |s| >= |pat| && s[..|pat|] != pat
    ensures (exists i :: OccursAt(pat, s, i)) <==> (exists i :: OccursAt(pat, s[1..], i))
  {
    if exists i :: OccursAt(pat, s, i) {
      var i :| OccursAt(pat, s, i);
      assert i != 0;
      assert s[1..][i - 1..i - 1 + |pat|] == s[i..i + |pat|];
      assert OccursAt(pat, s[1..], i - 1);
    }
    if exists i :: OccursAt(pat, s[1..], i) {
      var i :| OccursAt(pat, s[1..], i);
      assert s[i + 1..i + 1 + |pat|] == s[1..][i..i + |pat|];
      assert OccursAt(pat, s, i + 1);
    }
  }

  /** Where part `k` starts in a join: the parts before it, each followed
      by one separator. */
  function PartStart(parts: seq<string>, sep: string, k: nat): nat
    requires k <= |parts|
  {
    if k == 0 then 0 else PartStart(parts, sep, k - 1) + |parts[k - 1]| + |sep|
  }

  /** `r` is the parts laid end to end with `sep` between neighbours: part
      `k` sits at `PartStart(parts, sep, k)`, a separator follows every part
      but the last, and the last part ends `r`. */
  ghost predicate JoinedAt(r: string, parts: seq<string>, sep: string)
    requires |parts| > 0
  {
    && |r| == PartStart(parts, sep, |parts| - 1) + |parts[|parts| - 1]|
    && PartsAt(r, parts, sep)
    && SeparatorsAt(r, parts, sep)
  }

  /** Part `k` sits at its start in `r`. */
  ghost predicate PartAt(r: string, parts: seq<string>, sep: string, k: nat)
    requires k < |parts|
  {
    && PartStart(parts, sep, k) + |parts[k]| <= |r|
    && r[PartStart(parts, sep, k)..PartStart(parts, sep, k) + |parts[k]|] == parts[k]
  }

  /** A separator follows part `k` in `r`. */
  ghost predicate SeparatorAt(r: string, parts: seq<string>, sep: string, k: nat)
    requires k < |parts|
  {
    && PartStart(parts, sep, k) + |parts[k]| + |sep| <= |r|
    && r[PartStart(parts, sep, k) + |parts[k]|..PartStart(parts, sep, k) + |parts[k]| + |sep|] == sep
  }

  ghost predicate PartsAt(r: string, parts: seq<string>, sep: string) {
    forall k :: 0 <= k < |parts| ==> PartAt(r, parts, sep, k)
  }

  ghost predicate SeparatorsAt(r: string, parts: seq<string>, sep: string) {
    forall k :: 0 <= k < |parts| - 1 ==> SeparatorAt(r, parts, sep, k)
  }

  /** Python's `sep.join(parts)`. */
  function Join(parts: seq<string>, sep: string): string
  {
    if |parts| == 0 then ""
    else if |parts| == 1 then parts[0]
    else parts[0] + sep + Join(parts[1..], sep)
  }

  /** Where the parts of a join sit: every part at its place, a separator
      between neighbours, and nothing after the last part. */
  lemma {:induction false} JoinLayout(parts: seq<string>, sep: string)
    requires |parts| > 0
    ensures JoinedAt(Join(parts, sep), parts, sep)
  {
    if |parts| == 1 {
      JoinOne(parts[0], sep);
      assert [parts[0]] == parts;
    } else {
      JoinLayout(parts[1..], sep);
      JoinStep(parts[0], sep, Join(parts[1..], sep), parts[1..]);
      assert [parts[0]] + parts[1..] == parts;
    }
  }

  /** One part is its own join. */
  lemma JoinOne(part: string, sep: string)
    ensures JoinedAt(part, [part], sep)
  {
    assert part[0..|part|] == part;
  }

  /** The starts of the parts after the first are those of the tail,
      moved by the first part and its separator. */
  lemma {:induction false} PartStartShift(parts: seq<string>, sep: string, k: nat)
    requires 1 <= k <= |parts|
    ensures PartStart(parts, sep, k) == |parts[0]| + |sep| + PartStart(parts[1..], sep, k - 1)
  {
    if k > 1 {
      PartStartShift(parts, sep, k - 1);
      assert parts[1..][k - 2] == parts[k - 1];
    }
  }

  /** Putting a part and a separator in front of a join lays out one more
      part. */
  lemma JoinStep(first: string, sep: string, rest: string, tail: seq<string>)
    requires |tail| > 0 && JoinedAt(rest, tail, sep)
    ensures JoinedAt(first + sep + rest, [first] + tail, sep)
  {
    var parts := [first] + tail;
    assert parts[1..] == tail;
    PartStartShift(parts, sep, |parts| - 1);
    PartsStep(first, sep, rest, tail);
    SeparatorsStep(first, sep, rest, tail);
  }

  /** A slice of `rest` is the same slice of `x + rest`, moved by `|x|`. */
  lemma SliceAfter(x: string, rest: string, a: nat, n: nat)
    requires a + n <= |rest|
    ensures (x + rest)[|x| + a..|x| + a + n] == rest[a..a + n]
  {
  }

  lemma PartsStep(first: string, sep: string, rest: string, tail: seq<string>)
    requires PartsAt(rest, tail, sep)
    ensures PartsAt(first + sep + rest, [first] + tail, sep)
  {
    forall k | 0 <= k < |tail| + 1
      ensures PartAt(first + sep + rest, [first] + tail, sep, k)
    {
      if k == 0 {
        FirstPart(first, sep, rest, tail);
      } else {
        PartStepAt(first, sep, rest, tail, k);
      }
    }
  }

  lemma FirstPart(first: string, sep: string, rest: string, tail: seq<string>)
    ensures PartAt(first + sep + rest, [first] + tail, sep, 0)
    ensures SeparatorAt(first + sep + rest, [first] + tail, sep, 0)
  {
    var r := (first + sep) + rest;
    assert ([first] + tail)[0] == first;
    assert r[0..|first|] == first;
    assert r[|first|..|first| + |sep|] == sep;
  }

  lemma PartStepAt(first: string, sep: string, rest: string, tail: seq<string>, k: nat)
    requires 1 <= k <= |tail| && PartsAt(rest, tail, sep)
    ensures PartAt(first + sep + rest, [first] + tail, sep, k)
  {
    var parts := [first] + tail;
    assert PartAt(rest, tail, sep, k - 1);
    assert parts[1..] == tail;
    PartStartShift(parts, sep, k);
    assert parts[k] == tail[k - 1];
    SliceAfter(first + sep, rest, PartStart(tail, sep, k - 1), |tail[k - 1]|);
    assert first + sep + rest == (first + sep) + rest;
  }

  lemma SeparatorsStep(first: string, sep: string, rest: string, tail: seq<string>)
    requires |tail| > 0 && SeparatorsAt(rest, tail, sep)
    ensures SeparatorsAt(first + sep + rest, [first] + tail, sep)
  {
    forall k | 0 <= k < |tail|
      ensures SeparatorAt(first + sep + rest, [first] + tail, sep, k)
    {
      if k == 0 {
        FirstPart(first, sep, rest, tail);
      } else {
        SeparatorStepAt(first, sep, rest, tail, k);
      }
    }
  }

  lemma SeparatorStepAt(first: string, sep: string, rest: string, tail: seq<string>, k: nat)
    requires 1 <= k < |tail| && SeparatorsAt(rest, tail, sep)
    ensures SeparatorAt(first + sep + rest, [first] + tail, sep, k)
  {
    var parts := [first] + tail;
    assert SeparatorAt(rest, tail, sep, k - 1);
    assert parts[1..] == tail;
    PartStartShift(parts, sep, k);
    assert parts[k] == tail[k - 1];
    SliceAfter(first + sep, rest, PartStart(tail, sep, k - 1) + |tail[k - 1]|, |sep|);
    assert first + sep + rest == (first + sep) + rest;
  }

  /** Every part of a join occurs in it. */
  lemma JoinKeepsParts(parts: seq<string>, sep: string, k: nat)
    requires k < |parts|
    ensures Contains(Join(parts, sep), parts[k])
  {
    JoinLayout(parts, sep);
    assert PartAt(Join(parts, sep), parts, sep, k);
    assert OccursAt(parts[k], Join(parts, sep), PartStart(parts, sep, k));
  }

  function Digit(d: nat): (c: char)
    requires d < 10
    ensures '0' <= c <= '9'
  {
    ('0' as int + d) as char
  }

  /** Decimal digits of `n`, most significant first, no leading zeros. */
  function NatToString(n: nat): (r: string)
    ensures |r| > 0
    ensures forall i :: 0 <= i < |r| ==> '0' <= r[i] <= '9'
    ensures |r| > 1 ==> r[0] != '0'
  {
    if n < 10 then [Digit(n)] else NatToString(n / 10) + [Digit(n % 10)]
  }

  /** Python's `str(i)` for an `int`. */
  function IntToString(i: int): (r: string)
    ensures |r| > 0
  {
    if i < 0 then "-" + NatToString(-i) else NatToString(i)
  }

  /** The value of a string of decimal digits. */
  function DigitsValue(s: string): nat
    requires forall i :: 0 <= i < |s| ==> '0' <= s[i] <= '9'
  {
    if |s| == 0 then 0 else 10 * DigitsValue(s[..|s| - 1]) + (s[|s| - 1] as int - '0' as int)
  }

  /** Rendering a number and reading its digits back gives the number. */
  lemma {:induction false} NatToStringRoundTrip(n: nat)
    ensures DigitsValue(NatToString(n)) == n
  {
    if n >= 10 {
      NatToStringRoundTrip(n / 10);
      var r := NatToString(n);
      assert r[..|r| - 1] == NatToString(n / 10);
    }
  }

  /** An occurrence survives putting text before and after it. */
  lemma ContainsInContext(a: string, s: string, b: string, pat: string)
    requires Contains(s, pat)
    ensures Contains(a + s + b, pat)
  {
    var i :| OccursAt(pat, s, i);
    assert (a + s + b)[|a| + i..|a| + i + |pat|] == s[i..i + |pat|];
    assert OccursAt(pat, a + s + b, |a| + i);
  }

  /** An occurrence stays one when text is appended. */
  lemma ContainsBeforeSuffix(s: string, b: string, pat: string)
    requires Contains(s, pat)
    ensures Contains(s + b, pat)
  {
    var i :| OccursAt(pat, s, i);
    assert (s + b)[i..i + |pat|] == s[i..i + |pat|];
    assert OccursAt(pat, s + b, i);
  }

  /** `w` is `head`, then `middle`, then `tail`. */
  ghost predicate Framed(w: string, head: string, middle: string, tail: string) {
    && |head| + |middle| + |tail| == |w|
    && w[..|head|] == head
    && w[|head|..|w| - |tail|] == middle
    && w[|w| - |tail|..] == tail
  }

  lemma FramedConcat(head: string, middle: string, tail: string)
    ensures Framed(head + middle + tail, head, middle, tail)
  {
    var w := head + middle + tail;
    assert w[..|head|] == head;
    assert w[|head|..|w| - |tail|] == middle;
    assert w[|w| - |tail|..] == tail;
  }

  lemma ConcatAssoc(a: string, b: string, c: string)
    ensures a + b + c == a + (b + c)
  {
  }

  /** `s.endswith(suffix)`. */
  predicate EndsWith(s: string, suffix: string) {
    |suffix| <= |s| && s[|s| - |suffix|..] == suffix
  }
}
